=== FILE: README.md ===
# MEP audit viewer — a Dafny model of its core

The audit viewer checks the mechanical, electrical and plumbing (MEP)
schedules of laboratory projects. A Python agent validates equipment rows
and room ventilation against cleanroom standards and writes a numbered
pair of audit files. An Express backend lists the project's spreadsheets,
starts the agent and locates its JSON report in the agent's console output.
The same backend serves the git history and stores per-commit comments. The
browser dashboard escapes text for inline handlers, searches a nested
standards reference, and summarises a report as pass/fail tallies. Two
maintenance scripts prepare the manuals for the regulatory search index:
one cuts the front matter off a PDF, the other selects which PDFs to load
and labels their pages.

The model is a set of Dafny modules, one per part of the program:

| module | file | models |
|---|---|---|
| `Wrappers` | wrappers.dfy | `Option`, and JavaScript truthiness of an optional string |
| `Strings` | strings.dfy | `startsWith`/`endsWith`/`includes`, ASCII lower-casing, `split`/`join`, global replacement, decimal digits, `strip` |
| `MepValidator` | validator.dfy | `validate_equipment`, `validate_ventilation` and the standards table |
| `AuditSetup` | audit_setup.dfy | `get_next_audit_paths`, the file and job choice of `interactive_setup`, headless mode |
| `FileListing` | file_listing.dfy | `GET /api/files`: filter and sort |
| `RunAudit` | run_audit.dfy | `POST /api/run-audit` and the result-path regular expression `/- (.+\.json)/` |
| `Comments` | comments.dfy | `GET`/`POST /api/comments` |
| `GitHistory` | git_history.dfy | the git-log parser of the server and of `scripts/gen-history.js`, the single retry, the empty-manifest fallback |
| `SafeEscape` | safe_escape.dfy | `safeEscape` and the browser's decoding of the attribute it fills |
| `StandardsSearch` | standards_search.dfy | the depth-first search of the standards reference and its top-five slice |
| `Dashboard` | dashboard.dfy | equipment-section visibility, tallies and percentages |
| `ManualIngest` | manual_ingest.dfy | PDF selection, skipping of originals with a clean copy, page labels |
| `FrontMatter` | front_matter.dfy | `remove_front_matter` |

Outside effects are parameters. A file's existence or content, the result
of `exec`, whether a write succeeds, and what a PDF loader returns are all
passed in. The handlers (`RunAudit.HandleRunAudit`, `Comments.PostComment`,
`ManualIngest.IngestPdfs`, `GitHistory.GenerateManifest`) return the effects
they would perform or their outcome; the other members are pure. Python
`float()` is a parameter `Parser` that returns a `Float`, which may be
finite, infinite or NaN. `localeCompare` is a collation key supplied by the
caller.

## Model

| member | source | states |
|---|---|---|
| MepValidator.ValidateEquipment | mep_validator_agent_v2.py:46-82 | status is PASS or FAIL; PASS exactly when the issue text is "None", exactly when the category checks raised nothing and the power field is present and holds a '/'; "Invalid power format" appears in the issues exactly when the power field is malformed, and then it is the last issue; the issue text is the category's message, the power message, or the two joined by ", " in that order |
| MepValidator.FanStaticPressure | mep_validator_agent_v2.py:55-60 | a Fan's issues start with the static-pressure message exactly when its pressure is missing, "-", zero or negative, and then it fails |
| MepValidator.PumpFlowRate | mep_validator_agent_v2.py:62-67 | a Pump's issues start with the flow-rate message exactly when its flow is missing, "-", zero or negative, and then it fails |
| MepValidator.MalformedNumber | mep_validator_agent_v2.py:54-70 | an unparseable reading of a Fan or Pump gives "Invalid numeric data" and not the category's own message |
| MepValidator.OtherCategoryPowerOnly | mep_validator_agent_v2.py:72-81 | for any category other than Fan and Pump only the power field decides the result |
| MepValidator.FirstIssueIsNotStaticPressure | mep_validator_agent_v2.py:56-60 | a Fan whose pressure reads as positive or unparseable does not report a zero static pressure |
| MepValidator.FirstIssueIsNotFlowRate | mep_validator_agent_v2.py:63-67 | a Pump whose flow reads as positive or unparseable does not report a missing flow rate |
| MepValidator.IssueTextFacts | mep_validator_agent_v2.py:81 | the issue text is "None" exactly when there are no issues; when the power field is malformed the joined text ends with the power message, and only then contains it |
| MepValidator.ValidateVentilation | mep_validator_agent_v2.py:20-39 | ACH times room volume is the supply airflow; the required minimum is reported exactly for the three listed classes and carries the table's value; PASS exactly when ACH is at least the minimum, 0 for an unlisted class |
| MepValidator.VentilationPassIff | mep_validator_agent_v2.py:28-32 | with a positive volume, PASS exactly when supply airflow is at least minimum ACH times volume |
| MepValidator.VentilationMonotone | mep_validator_agent_v2.py:28-32 | raising the supply airflow never turns PASS into FAIL |
| MepValidator.UnknownClassPasses | mep_validator_agent_v2.py:31-37 | a class missing from the table has no required minimum, and passes exactly when the airflow is not negative |
| AuditSetup.NamesDistinct | mep_validator_agent_v2.py:132-134 | the text and JSON names of different runs, or of different kinds, never coincide |
| AuditSetup.NextAuditPaths | mep_validator_agent_v2.py:126-137 | returns the smallest run number from 1 whose text and JSON files are both absent, with both paths under the directory |
| AuditSetup.SelectInput | mep_validator_agent_v2.py:160-175 | an answer that is a position from 1 to the number of listed files selects that file; any other answer is taken, stripped, as a path |
| AuditSetup.SelectByPosition | mep_validator_agent_v2.py:171-173 | typing the decimal position k selects the k-th listed file |
| AuditSetup.JobReference | mep_validator_agent_v2.py:178-180 | the stripped answer, or "UNREFERENCED" when it strips to nothing; never empty and never padded with spaces |
| AuditSetup.ResolveInputs | mep_validator_agent_v2.py:193-199 | both command-line values given and non-empty means they are used as they are; otherwise the interactive choices are used |
| FileListing.BeforeMeaning | server.js:32-36 | the comparator puts a ".csv" name, in any case, before every other name, and otherwise orders by the collation key |
| FileListing.BeforeTransitive | server.js:32-36 | the comparator's order is transitive, so the sort is well defined |
| FileListing.Sort | server.js:32-36 | the output is a permutation of the input, ordered by the comparator |
| FileListing.Filter | server.js:27-30 | keeps every ".csv" or ".ods" name, in any case, with its multiplicity, and nothing else |
| FileListing.ListMepFiles | server.js:27-38 | a permutation of the spreadsheet names; all ".csv" names come before the ".ods" names; names of the same kind are in collation order |
| FileListing.FilesEndpoint | server.js:20-39 | an unreadable directory gives the error response; otherwise a permutation of the spreadsheet names, each as often as listed, with all ".csv" names before the ".ods" names and names of the same kind in collation order |
| RunAudit.ResultPath | server.js:74-76 | no result exactly when no line holds "- " followed by text ending in ".json"; a result is a group of at least six characters without line breaks that ends in ".json" and follows "- " in the output |
| RunAudit.LongestAt | server.js:74 | no match starts at `i`, or the reported end closes a match and no longer match starts there |
| RunAudit.MatchFrom | server.js:74 | the leftmost match and, at that start, the longest one on its line |
| RunAudit.LeftmostLongestUnique | server.js:74 | the leftmost-longest match is unique |
| RunAudit.AgentOutputLocatesJson | mep_validator_agent_v2.py:220 | in the agent's log banner, the regular expression captures exactly the JSON path, given that the text path holds no ".json" and the header holds no "- " |
| RunAudit.HandleRunAudit | server.js:43-86 | 400 with no effect exactly when the file name or job reference is falsy; the upload is written to the joined path first when content is given, and a failed save answers 500; otherwise the agent command with the joined file path and job reference is spawned, and the answer is the execution error, "not located", "unreadable" or the report read from the located path |
| RunAudit.AuditAnswersWithAgentReport | server.js:60-83 | a valid, stored request whose agent succeeds and prints its log banner is answered 200 with the content of the JSON report the agent named |
| Comments.GetComments | server.js:154-162 | a missing file reads as no comments; a corrupt file is an error; otherwise the stored map |
| Comments.Upsert | server.js:177 | the hash maps to the new comment, or is removed when the comment is undefined; all other entries stay as they were |
| Comments.PostComment | server.js:165-184 | 400 exactly when the hash is falsy; saved exactly when the hash is truthy and the write succeeds, and then the file holds the previous entries updated at the hash; otherwise the file is unchanged |
| Comments.SavedCommentIsRead | server.js:165-184 | after a successful save the comment is read back under its hash |
| Comments.UnrelatedWritePreserves | server.js:169-179 | saving under another hash keeps an existing comment |
| Comments.LastWriteWins | server.js:177-179 | two saves under one hash leave the second comment |
| Comments.WriteToleratesBadFile | server.js:170-176 | a missing or unparseable comments file is treated as an empty map |
| Strings.JoinSplit | server.js:127 | splitting the output at line breaks loses nothing: joining the pieces with line breaks gives the output back |
| GitHistory.NonEmpty | server.js:127 | the result holds only non-empty lines of the input, every non-empty line of the input, and is the input itself when no line is empty |
| GitHistory.NonEmptyCounts | server.js:127 | every non-empty line is kept exactly as often as the input holds it |
| GitHistory.NonEmptyConcat | server.js:127 | the filter keeps input order: filtering a concatenation gives the filtered parts one after the other |
| GitHistory.NonEmptySingle | server.js:127 | a single line is dropped exactly when it is empty |
| GitHistory.ParseLogFirstLine | server.js:127-130 | the output's first line contributes its commit (none when empty) ahead of the commits of the remaining output |
| GitHistory.ParseLogLastLine | server.js:127-130 | output without a line break gives one commit, or none when it is empty |
| GitHistory.ParseFormatted | server.js:121-129 | a line written as hash\|author\|date\|subject, with no '\|' or line break in its fields, parses back to those four fields |
| GitHistory.ParseLogRoundTrip | server.js:121-130 | the log of such entries parses back to exactly those entries, in order |
| GitHistory.SubjectTruncatedAtBar | server.js:128 | a subject containing '\|' is cut at its first '\|' |
| GitHistory.ShortLine | server.js:128-129 | a line with fewer than four fields has no message, and with fewer than three no date |
| GitHistory.HistoryEndpoint | server.js:119-151 | a failed git command gives 500; a single commit in a shallow clone, before any retry, redirects once after a successful fetch; otherwise the parsed history |
| GitHistory.FetchHistory | server.js:135-147 | following the redirect at most once, the endpoint never answers with a further redirect |
| GitHistory.GenerateManifest | scripts/gen-history.js:10-34 | skipped exactly in a CI environment; when git and the write succeed the manifest is the parsed log; otherwise the empty array is written, and the script crashes exactly when that write fails too |
| GitHistory.ManifestRoundTrip | scripts/gen-history.js:17-28 | the manifest of a log git printed lists its commits in order with all four fields, the same list the backend serves for that log |
| SafeEscape.SafeEscape | src/main.js:68-76 | a falsy input gives ''; the output holds no raw double quote, line feed or carriage return; text without any of the five special characters is returned unchanged |
| SafeEscape.SafeEscapePerChar | src/main.js:70-75 | the five global replacements amount to escaping each character on its own |
| SafeEscape.AmpersandNotEscaped | src/main.js:68-76 | as written, "&quot;" is passed through and reaches the handler as '"' |
| SafeEscape.FixedSafeEscape | src/main.js:68-76 | with '&' escaped first, every truthy text reaches the handler unchanged after HTML and JavaScript decoding |
| StandardsSearch.Search | src/main.js:415-426 | every result is a text entry of the reference whose key or value contains the query |
| StandardsSearch.SearchIsFilteredLeaves | src/main.js:415-426 | the results are exactly the matching text entries, in depth-first order |
| StandardsSearch.SearchFindsExactlyMatches | src/main.js:417-425 | a text entry is found if and only if its key or value contains the query |
| StandardsSearch.NarrowingQuery | src/main.js:421 | a query containing another finds no entry the other misses |
| StandardsSearch.NestedPath | src/main.js:417-419 | a nested entry is reported with the path " > A > B" of the objects above it |
| StandardsSearch.TopFive | src/main.js:433 | shows the first min(5, n) results |
| StandardsSearch.PerformSearch | src/main.js:405-433 | an empty query hides the panel; otherwise the first five matching entries in search order are shown, or all of them when fewer than five match |
| StandardsSearch.QueryOf | src/main.js:525-537 | the query is the typed text lower-cased character by character, so it holds no ASCII capital |
| StandardsSearch.CaseInsensitive | src/main.js:421 | an entry whose value contains the typed text, ignoring ASCII case, is found |
| Dashboard.Tally | src/main.js:611-617 | the pass count is the number of rows whose status is "PASS"; pass and fail add up to the number of rows |
| Dashboard.Percent | src/main.js:634 | the whole percentage nearest to pass/total, rounding halves up, between 0 and 100 |
| Dashboard.PercentNearest | src/main.js:634 | that percentage is the only one within half a point |
| Dashboard.PercentBounds | src/main.js:634 | a table with no passing row reads 0 and one where every row passes reads 100 |
| Dashboard.Metric | src/main.js:633-634 | "0%" for an empty table, otherwise the rounded percentage followed by '%' |
| Dashboard.Summarise | src/main.js:633-636 | the metric and the "N PASSED" / "N FAILED" captions of one table |
| Dashboard.EquipmentSection | src/main.js:591-607 | hidden exactly when no server-side file is selected; the notice replaces the table exactly when every entry failed on power format |
| Dashboard.NoticeIffEveryPowerMalformed | src/main.js:597-598 | for validator output, the notice shows exactly when the schedule is non-empty and every row's power field is malformed |
| ManualIngest.ToLoad | ingest_manuals.py:27-39 | a file is loaded exactly when it ends in ".pdf" and is not the original of a listed clean copy |
| ManualIngest.CleanCopyShadowsOriginal | ingest_manuals.py:31-39 | for a stem that does not itself contain "_clean.pdf", stem.pdf is skipped whenever stem_clean.pdf is listed |
| ManualIngest.NoCleanCopies | ingest_manuals.py:28-39 | without clean copies every PDF is loaded |
| ManualIngest.Label | ingest_manuals.py:50-56 | each page names its manual; a recorded 0-based page index becomes 1-based, and a missing one becomes "N/A" |
| ManualIngest.GatherSources | ingest_manuals.py:50-58 | every gathered page comes from a file selected for loading |
| ManualIngest.LoadAll | ingest_manuals.py:35-60 | the loop collects the labelled pages of every selected file in listing order; a file whose loader fails adds nothing |
| ManualIngest.IngestPdfs | ingest_manuals.py:12-64 | a missing source directory stops before the database is cleared; no pages at all ends with "no PDFs"; otherwise the gathered pages are ingested |
| FrontMatter.RemoveFrontMatter | clean_pdf.py:9-44 | a missing input does nothing; a file with no more pages than the cut, and only such a file, is refused; failure comes only from an unreadable file, a negative cut past the start or a failed write; otherwise the saved copy has total − cut pages; for a non-negative cut the removed front followed by the copy is the original; a negative cut reads from the end as the page list allows |
| FrontMatter.CleanedCopyReplacesOriginal | clean_pdf.py:5-7 | once the cleaned copy of the configured manual sits beside it, the ingestion no longer loads the original |

## Left out

- Console output, the `Logger` that copies standard output to the text log, and directory creation are not modelled.
- Thermal comfort (`check_thermal_comfort`), CSV loading and the JSON report layout are left out. They wrap libraries: `pythermalcomfort` and `csv`.
- MepValidator.ValidateVentilation: the report carries the exact ACH; the source rounds it to two decimals, but its status uses the unrounded value, as the model does.
- MepValidator.ValidateVentilation: a zero room volume is excluded by its precondition. Python raises `ZeroDivisionError` there, and the script does not catch it.
- Python `float()` is a parameter, because its exact grammar is a library matter; `ReadsZero` only fixes that "0" reads as zero.
- AuditSetup.SelectInput: `str.isdigit` also accepts non-ASCII digits; the model only knows ASCII digits.
- AuditSetup.JobReference: `strip()` here removes ASCII whitespace and the separators U+001C to U+001F only; Python also strips other Unicode spaces.
- The file names offered by `interactive_setup` come from `glob`, whose order is a parameter of the model.
- FileListing.Sort: `localeCompare` is a caller-supplied collation key; ties between distinct names are not ordered, and the stability of `Array.prototype.sort` is not stated.
- The shell quoting of the agent command, path normalisation by `path.join`, and `JSON.parse` of the report are not modelled. A malformed report throws in the callback; the model assumes a report that parses.
- Comments.GetComments, Comments.PostComment, Comments.Upsert: a comments file holding JSON other than an object, and keys such as `__proto__`, are not modelled: in the server a file holding `null` makes the assignment throw and the request answers 500, and a `__proto__` key sets the object's prototype instead of storing an entry.
- The AI-chat proxy, the RAG query and the LLM calls are left out (network).
- The text splitter, embeddings and vector database of the ingestion are left out (libraries). The model stops at the list of labelled pages.
- SafeEscape.FixedSafeEscape: the round trip is proved for the inline `onclick` string literal only. The same escaped text also fills the `data-query` and `data-rag` attributes (src/main.js:459-473), which are read back through `dataset` and `JSON.parse` (src/main.js:280-281) with HTML decoding but no JavaScript-literal decoding. On that path the backslashes the escape adds stay in the text, so neither version gives back the original there, and `JSON.parse` rejects the `\'` that an apostrophe becomes. This second consumer is not modelled.
- StandardsSearch.Search: the key order of `Object.entries` is the order of the entries; JavaScript lists integer-like keys first, and the reference has none.
- StandardsSearch.Search, StandardsSearch.QueryOf, StandardsSearch.CaseInsensitive: `toLowerCase` is modelled for ASCII letters only; JavaScript's `toLowerCase` also lower-cases other letters ('Ä' becomes 'ä'), and some (such as 'İ') become two code units, so the query's length and per-character lower-casing hold for ASCII text only.
- Dashboard.Percent: computed exactly; `Math.round` of a floating-point quotient can differ at exact halves that binary floating point cannot represent.
- Dashboard tallies assume `data.rooms` and `data.equipment` are arrays; with either missing, `forEach` throws.
- ManualIngest.IngestPdfs: which exceptions the PDF loader raises is a parameter; the order of `os.listdir` is the order of the listing given.
- FrontMatter.RemoveFrontMatter: page objects are opaque. Negative indexing follows pypdf's page list, which counts from the end and raises outside the list. Any failure to read or write is the single outcome `Failed`.
- The DOM, the report header text, the history and management views, the download scripts and the PDF content checks are outside the core.

## Findings

| source | as written | input that shows it | evidently intended | confidence | as-written member | corrected member |
|---|---|---|---|---|---|---|
| src/main.js:68-76 | `safeEscape` turns '"' into `&quot;` but leaves '&' alone, so the HTML parser decodes any character reference already present in the text | the text `&quot;` is inserted unchanged, and the handler receives `"` | escape '&' as `&amp;` first, so that the handler receives the original text | not executed | SafeEscape.AmpersandNotEscaped | SafeEscape.FixedSafeEscape |

## Notes on the code

- `GET /api/comments` answers 500 when the comments file does not parse. It does not fall back to an empty map; only `POST` does that.
- A comment posted without a `comment` field sets the key to `undefined`. `JSON.stringify` then drops that key, so the post deletes the comment.
- The skipped originals are computed with `str.replace`, which rewrites every "_clean.pdf" in a name, not only the suffix. For a stem that itself contains "_clean.pdf" the original is therefore not recognised: with "x_clean.pdf.pdf" and "x_clean.pdf_clean.pdf" listed, the computed original is "x.pdf.pdf", and both files are loaded. `ManualIngest.CleanCopyShadowsOriginal` excludes such stems.

=== FILE: audit_setup.dfy ===
/** How the validation agent picks its inputs and the names of the files of a
    new audit run. */
module AuditSetup {
  import opened Wrappers
  import opened Strings

  // ---------------------------------------------------------------------
  // Numbering of audit runs.

  function TxtName(n: nat): string {
    "audit_" + Decimal(n) + ".txt"
  }

  function JsonName(n: nat): string {
    "audit_" + Decimal(n) + ".json"
  }

  /** Python's `os.path.join(directory, name)` for a relative name: a separator
      is added unless the directory is empty or already ends in '/'. */
  function PathJoin(directory: string, name: string): string {
    if directory == "" || EndsWith(directory, "/") then directory + name else directory + "/" + name
  }

  /** Run `n` cannot be used: one of its two files already exists. */
  predicate Taken(existing: set<string>, n: nat) {
    TxtName(n) in existing || JsonName(n) in existing
  }

  /** Different runs and different kinds of file never share a name. */
  lemma NamesDistinct(a: nat, b: nat)
    ensures TxtName(a) != JsonName(b)
    ensures TxtName(a) == TxtName(b) ==> a == b
    ensures JsonName(a) == JsonName(b) ==> a == b
  {
    var ta, tb, ja := TxtName(a), TxtName(b), JsonName(b);
    assert ta[|ta| - 1] == 't' && ja[|ja| - 1] == 'n';
    if ta == tb {
      assert Decimal(a) == ta[6..|ta| - 4] == tb[6..|tb| - 4] == Decimal(b);
      DecimalInjective(a, b);
    }
    var ja', jb' := JsonName(a), JsonName(b);
    if ja' == jb' {
      assert Decimal(a) == ja'[6..|ja'| - 5] == jb'[6..|jb'| - 5] == Decimal(b);
      DecimalInjective(a, b);
    }
  }

  /** `get_next_audit_paths` over the set of names already present in the
      audit directory (a missing directory holds no names). */
  method NextAuditPaths(directory: string, existing: set<string>) returns (n: nat, txt: string, json: string)
    ensures n >= 1
    ensures TxtName(n) !in existing && JsonName(n) !in existing
    ensures forall k :: 1 <= k < n ==> Taken(existing, k)
    ensures txt == PathJoin(directory, TxtName(n)) && json == PathJoin(directory, JsonName(n))
  {
    n := 1;
    ghost var unseen := existing;
    while Taken(existing, n)
      invariant n >= 1
      invariant forall k :: 1 <= k < n ==> Taken(existing, k)
      invariant unseen <= existing
      invariant forall k :: k >= n && TxtName(k) in existing ==> TxtName(k) in unseen
      invariant forall k :: k >= n && JsonName(k) in existing ==> JsonName(k) in unseen
      decreases unseen
    {
      forall k | k > n
        ensures TxtName(k) != TxtName(n) && TxtName(k) != JsonName(n)
        ensures JsonName(k) != TxtName(n) && JsonName(k) != JsonName(n)
      {
        NamesDistinct(k, n);
        NamesDistinct(n, k);
      }
      unseen := unseen - {TxtName(n), JsonName(n)};
      n := n + 1;
    }
    txt := PathJoin(directory, TxtName(n));
    json := PathJoin(directory, JsonName(n));
  }

  // ---------------------------------------------------------------------
  // Choosing the input file and the job reference.

  const UNREFERENCED := "UNREFERENCED"

  /** The first answer is a valid 1-based position in the listed files. */
  predicate PicksListed(csvFiles: seq<string>, choice: string) {
    IsDigits(choice) && 1 <= DecimalValue(choice) <= |csvFiles|
  }

  /** The file part of `interactive_setup`: with no CSV files the answer is a
      path; otherwise a number in range selects a listed file and any other
      answer is taken as a path. */
  function SelectInput(csvFiles: seq<string>, answer: string): (r: string)
    ensures PicksListed(csvFiles, Strip(answer)) ==> r == csvFiles[DecimalValue(Strip(answer)) - 1]
    ensures !PicksListed(csvFiles, Strip(answer)) ==> r == Strip(answer)
    ensures r in csvFiles || r == Strip(answer)
  {
    var choice := Strip(answer);
    if csvFiles == [] then choice
    else if IsDigits(choice) && 1 <= DecimalValue(choice) <= |csvFiles| then csvFiles[DecimalValue(choice) - 1]
    else choice
  }

  /** Typing the decimal position of a listed file selects that file. */
  lemma SelectByPosition(csvFiles: seq<string>, k: nat)
    requires 1 <= k <= |csvFiles|
    ensures SelectInput(csvFiles, Decimal(k)) == csvFiles[k - 1]
  {
    var d := Decimal(k);
    StripDigits(d);
    assert PicksListed(csvFiles, Strip(d));
  }

  /** The job part of `interactive_setup`: the stripped answer, or
      "UNREFERENCED" when nothing is left. */
  function JobReference(answer: string): (r: string)
    ensures r != ""
    ensures Strip(answer) != "" ==> r == Strip(answer)
    ensures Strip(answer) == "" ==> r == UNREFERENCED
    ensures !IsSpace(r[0]) && !IsSpace(r[|r| - 1])
  {
    var job := Strip(answer);
    if job == "" then UnreferencedIsTrimmed(); UNREFERENCED else job
  }

  lemma UnreferencedIsTrimmed()
    ensures |UNREFERENCED| > 0 && !IsSpace(UNREFERENCED[0]) && !IsSpace(UNREFERENCED[|UNREFERENCED| - 1])
  {
    assert UNREFERENCED[0] == 'U' && UNREFERENCED[|UNREFERENCED| - 1] == 'D';
  }

  datatype RunInputs = RunInputs(csvPath: string, jobReference: string)

  /** The entry point: both command-line values given means headless mode;
      otherwise both questions are asked. */
  function ResolveInputs(argFile: Option<string>, argJob: Option<string>, csvFiles: seq<string>,
                         fileAnswer: string, jobAnswer: string): (r: RunInputs)
    ensures Truthy(argFile) && Truthy(argJob) ==> r == RunInputs(argFile.value, argJob.value)
    ensures !(Truthy(argFile) && Truthy(argJob)) ==>
              r == RunInputs(SelectInput(csvFiles, fileAnswer), JobReference(jobAnswer))
    ensures r.jobReference != ""
  {
    if Truthy(argFile) && Truthy(argJob) then RunInputs(argFile.value, argJob.value)
    else RunInputs(SelectInput(csvFiles, fileAnswer), JobReference(jobAnswer))
  }
}

=== FILE: comments.dfy ===
/** The commit-comment store of the backend: a JSON object from commit hash
    to comment text, read and rewritten whole. */
module Comments {
  import opened Wrappers

  type CommentMap = map<string, string>

  /** The comments file as the backend finds it. */
  datatype CommentsFile = Missing | Corrupt | Stored(entries: CommentMap)

  datatype ReadResponse = ReadOk(entries: CommentMap) | ReadFailed

  /** `GET /api/comments`: a missing file reads as no comments; a file that
      does not parse is an error (500). */
  function GetComments(f: CommentsFile): (r: ReadResponse)
    ensures r.ReadFailed? <==> f.Corrupt?
    ensures r.ReadOk? ==> r.entries == Loaded(f)
  {
    match f
    case Missing => ReadOk(map[])
    case Corrupt => ReadFailed
    case Stored(m) => ReadOk(m)
  }

  /** What the write path starts from: an unreadable or missing file counts
      as the empty object. */
  function Loaded(f: CommentsFile): (m: CommentMap)
    ensures f.Stored? ==> m == f.entries
    ensures !f.Stored? ==> m == map[]
  {
    match f
    case Stored(m) => m
    case _ => map[]
  }

  /** `comments[hash] = comment` as it reaches the file: `JSON.stringify`
      drops a key whose value is `undefined`, so an absent comment removes the entry. */
  function Upsert(m: CommentMap, hash: string, comment: Option<string>): (r: CommentMap)
    ensures comment.Some? ==> hash in r && r[hash] == comment.value
    ensures comment.None? ==> hash !in r
    ensures forall k :: k != hash ==> (k in r <==> k in m)
    ensures forall k :: k != hash && k in m ==> r[k] == m[k]
  {
    match comment
    case Some(c) => m[hash := c]
    case None => m - {hash}
  }

  datatype WriteResponse = MissingHash | Saved | SaveFailed

  function WriteStatus(r: WriteResponse): int {
    match r
    case MissingHash => 400
    case Saved => 200
    case SaveFailed => 500
  }

  /** `POST /api/comments`. `written` says whether the file system accepted
      the new file; a rejected write leaves the old file in place. */
  function PostComment(f: CommentsFile, hash: Option<string>, comment: Option<string>, written: bool)
    : (r: (WriteResponse, CommentsFile))
    ensures WriteStatus(r.0) == 400 <==> !Truthy(hash)
    ensures r.0 != Saved ==> r.1 == f
    ensures r.0 == Saved <==> Truthy(hash) && written
    ensures r.0 == Saved ==> r.1 == Stored(Upsert(Loaded(f), hash.value, comment))
  {
    if !Truthy(hash) then (MissingHash, f)
    else if !written then (SaveFailed, f)
    else (Saved, Stored(Upsert(Loaded(f), hash.value, comment)))
  }

  /** A saved comment is what the next read returns for its hash. */
  lemma SavedCommentIsRead(f: CommentsFile, hash: string, comment: string)
    requires hash != ""
    ensures var (resp, f') := PostComment(f, Some(hash), Some(comment), true);
            resp == Saved && GetComments(f').ReadOk?
            && hash in GetComments(f').entries && GetComments(f').entries[hash] == comment
  {
  }

  /** Writes for other hashes, successful or not, leave a comment alone. */
  lemma UnrelatedWritePreserves(f: CommentsFile, hash: string, comment: string,
                                other: Option<string>, c: Option<string>, written: bool)
    requires f.Stored? && hash in f.entries && f.entries[hash] == comment
    requires other != Some(hash)
    ensures var f' := PostComment(f, other, c, written).1;
            f'.Stored? && hash in f'.entries && f'.entries[hash] == comment
  {
  }

  /** The last of two writes to one hash wins. */
  lemma LastWriteWins(f: CommentsFile, hash: string, first: Option<string>, second: string)
    requires hash != ""
    ensures var f1 := PostComment(f, Some(hash), first, true).1;
            var f2 := PostComment(f1, Some(hash), Some(second), true).1;
            f2.Stored? && hash in f2.entries && f2.entries[hash] == second
  {
  }

  /** On the write path a missing file, a corrupt file and an empty object
      are all the same starting point. */
  lemma WriteToleratesBadFile(hash: Option<string>, comment: Option<string>)
    ensures PostComment(Missing, hash, comment, true).0 == PostComment(Stored(map[]), hash, comment, true).0
    ensures Truthy(hash) ==> PostComment(Missing, hash, comment, true) == PostComment(Corrupt, hash, comment, true)
                             == PostComment(Stored(map[]), hash, comment, true)
  {
  }
}

=== FILE: dashboard.dfy ===
/** How the dashboard summarises an audit report: the visibility of the
    equipment section, and the pass/fail tallies with their rounded
    percentage. */
module Dashboard {
  import opened Wrappers
  import opened Strings
  import MepValidator

  // ---------------------------------------------------------------------
  // Tallies.

  /** The `forEach` that counts rows whose status is exactly "PASS" and
      counts every other row as failed. */
  method Tally(statuses: seq<string>) returns (pass: nat, fail: nat)
    ensures pass == multiset(statuses)[MepValidator.PASS]
    ensures pass + fail == |statuses|
  {
    pass, fail := 0, 0;
    var i := 0;
    while i < |statuses|
      invariant 0 <= i <= |statuses|
      invariant pass == multiset(statuses[..i])[MepValidator.PASS]
      invariant pass + fail == i
    {
      assert statuses[..i + 1] == statuses[..i] + [statuses[i]];
      if statuses[i] == MepValidator.PASS {
        pass := pass + 1;
      } else {
        fail := fail + 1;
      }
      i := i + 1;
    }
    assert statuses[..i] == statuses;
  }

  /** `Math.round(pass / total * 100)` computed exactly: halves round up. */
  function Percent(pass: nat, total: nat): (p: nat)
    requires pass <= total && total > 0
    ensures p <= 100
    ensures 2 * p * total <= 200 * pass + total < 2 * p * total + 2 * total
  {
    var p := (200 * pass + total) / (2 * total);
    DivBounds(200 * pass + total, 2 * total);
    LessByFactor(p, 101, 2 * total);
    p
  }

  /** Floor division brackets its dividend. */
  lemma DivBounds(a: nat, b: nat)
    requires b > 0
    ensures a / b * b <= a < a / b * b + b
  {
  }

  /** Rounding picks the nearest whole percentage, the upper one at a tie. */
  lemma LessByFactor(a: int, b: int, t: int)
    requires t > 0 && a * t < b * t
    ensures a < b
  {
  }

  lemma PercentNearest(pass: nat, total: nat, q: nat)
    requires pass <= total && total > 0
    requires 2 * q * total <= 200 * pass + total < 2 * q * total + 2 * total
    ensures q == Percent(pass, total)
  {
    var p := Percent(pass, total);
    var m := 2 * total;
    Regroup(p, total);
    Regroup(q, total);
    LessByFactor(q, p + 1, m);
    LessByFactor(p, q + 1, m);
  }

  lemma Regroup(x: nat, total: nat)
    ensures 2 * x * total == x * (2 * total)
    ensures (x + 1) * (2 * total) == x * (2 * total) + 2 * total
  {
  }

  lemma PercentBounds(total: nat)
    requires total > 0
    ensures Percent(0, total) == 0 && Percent(total, total) == 100
  {
    PercentNearest(0, total, 0);
    PercentNearest(total, total, 100);
  }

  /** The metric text: "0%" when there are no rows. */
  function Metric(pass: nat, total: nat): (m: string)
    requires pass <= total
    ensures EndsWith(m, "%")
    ensures total == 0 ==> m == "0%"
    ensures total > 0 ==> m[..|m| - 1] == Decimal(Percent(pass, total))
  {
    if total == 0 then "0%" else Decimal(Percent(pass, total)) + "%"
  }

  /** Three rooms of which two pass read "67%". */
  lemma TwoOfThree()
    ensures Percent(2, 3) == 67
  {
  }

  datatype Summary = Summary(metric: string, passed: string, failed: string)

  /** The metric and the two count captions of one table. */
  method Summarise(statuses: seq<string>) returns (s: Summary)
    ensures var pass := multiset(statuses)[MepValidator.PASS];
            pass <= |statuses|
            && s.metric == Metric(pass, |statuses|)
            && s.passed == Decimal(pass) + " PASSED"
            && s.failed == Decimal(|statuses| - pass) + " FAILED"
  {
    var pass, fail := Tally(statuses);
    s := Summary(Metric(pass, |statuses|), Decimal(pass) + " PASSED", Decimal(fail) + " FAILED");
  }

  // ---------------------------------------------------------------------
  // The equipment section.

  /** `allInvalid`: the equipment list is present, non-empty, and every
      entry failed with an invalid power format. */
  predicate AllInvalid(equipment: Option<seq<MepValidator.EquipmentResult>>) {
    equipment.Some? && |equipment.value| > 0
    && forall k :: 0 <= k < |equipment.value| ==>
         equipment.value[k].status == MepValidator.FAIL
         && Contains(equipment.value[k].issues, MepValidator.INVALID_POWER)
  }

  datatype EquipmentView = SectionHidden | NoDataNotice | Table

  /** Which part of the equipment section is visible. The section shows
      only when a server-side file is selected. */
  function EquipmentSection(fileSelected: bool, equipment: Option<seq<MepValidator.EquipmentResult>>): (v: EquipmentView)
    ensures v == SectionHidden <==> !fileSelected
    ensures v == NoDataNotice <==> fileSelected && AllInvalid(equipment)
  {
    if !fileSelected then SectionHidden
    else if AllInvalid(equipment) then NoDataNotice
    else Table
  }

  /** Validator output: the notice replaces the table exactly when every
      row of the schedule has a malformed power field. */
  lemma NoticeIffEveryPowerMalformed(rows: seq<MepValidator.Row>, parse: MepValidator.Parser)
    ensures var results := seq(|rows|, k requires 0 <= k < |rows| => MepValidator.ValidateEquipment(rows[k], parse));
            AllInvalid(Some(results))
            <==> |rows| > 0 && forall k :: 0 <= k < |rows| ==> !MepValidator.PowerWellFormed(rows[k])
  {
    var results := seq(|rows|, k requires 0 <= k < |rows| => MepValidator.ValidateEquipment(rows[k], parse));
    forall k | 0 <= k < |rows|
      ensures (results[k].status == MepValidator.FAIL && Contains(results[k].issues, MepValidator.INVALID_POWER))
              <==> !MepValidator.PowerWellFormed(rows[k])
    {
      var r := MepValidator.ValidateEquipment(rows[k], parse);
      assert results[k] == r;
    }
  }
}

=== FILE: file_listing.dfy ===
/** The backend's file listing: the spreadsheet files of the project
    directory, CSV files first, each group in collation order. */
module FileListing {
  import opened Wrappers
  import opened Strings

  /** Names that end in ".csv", ignoring case. */
  predicate IsCsv(f: string) {
    EndsWith(Lower(f), ".csv")
  }

  /** Names that end in ".csv" or ".ods", ignoring case. */
  predicate IsMepFile(f: string) {
    EndsWith(Lower(f), ".csv") || EndsWith(Lower(f), ".ods")
  }

  // ---------------------------------------------------------------------
  // Collation. `localeCompare` orders strings by their collation keys; the
  // keys themselves come from the locale and are a parameter here.

  type SortKey = string -> seq<nat>

  /** Lexicographic order on collation keys (a proper prefix comes first). */
  predicate KeyLeq(a: seq<nat>, b: seq<nat>)
    decreases |a|
  {
    |a| == 0 || (|b| > 0 && (a[0] < b[0] || (a[0] == b[0] && KeyLeq(a[1..], b[1..]))))
  }

  lemma {:induction false} KeyLeqReflexive(a: seq<nat>)
    ensures KeyLeq(a, a)
    decreases |a|
  {
    if |a| > 0 {
      KeyLeqReflexive(a[1..]);
    }
  }

  lemma {:induction false} KeyLeqTotal(a: seq<nat>, b: seq<nat>)
    ensures KeyLeq(a, b) || KeyLeq(b, a)
    decreases |a|
  {
    if |a| > 0 && |b| > 0 && a[0] == b[0] {
      KeyLeqTotal(a[1..], b[1..]);
    }
  }

  lemma {:induction false} KeyLeqTransitive(a: seq<nat>, b: seq<nat>, c: seq<nat>)
    requires KeyLeq(a, b) && KeyLeq(b, c)
    ensures KeyLeq(a, c)
    decreases |a|
  {
    if |a| > 0 && a[0] == b[0] && b[0] == c[0] {
      KeyLeqTransitive(a[1..], b[1..], c[1..]);
    }
  }

  /** `a.localeCompare(b)`: negative, zero or positive. */
  function LocaleCompare(key: SortKey, a: string, b: string): int {
    if key(a) == key(b) then 0 else if KeyLeq(key(a), key(b)) then -1 else 1
  }

  /** The comparator handed to `sort`. */
  function Compare(key: SortKey, a: string, b: string): int {
    if IsCsv(a) && !IsCsv(b) then -1
    else if !IsCsv(a) && IsCsv(b) then 1
    else LocaleCompare(key, a, b)
  }

  /** `a` may be placed before `b`. */
  predicate Before(key: SortKey, a: string, b: string) {
    Compare(key, a, b) <= 0
  }

  /** Before is a total preorder, so sorting by it is well defined. */
  lemma BeforeMeaning(key: SortKey, a: string, b: string)
    ensures Before(key, a, b) <==> (IsCsv(a) && !IsCsv(b)) || (IsCsv(a) == IsCsv(b) && KeyLeq(key(a), key(b)))
  {
    if key(a) == key(b) {
      KeyLeqReflexive(key(a));
    }
  }

  lemma BeforeTotal(key: SortKey, a: string, b: string)
    ensures Before(key, a, b) || Before(key, b, a)
  {
    BeforeMeaning(key, a, b);
    BeforeMeaning(key, b, a);
    KeyLeqTotal(key(a), key(b));
  }

  lemma BeforeTransitive(key: SortKey, a: string, b: string, c: string)
    requires Before(key, a, b) && Before(key, b, c)
    ensures Before(key, a, c)
  {
    BeforeMeaning(key, a, b);
    BeforeMeaning(key, b, c);
    BeforeMeaning(key, a, c);
    if IsCsv(a) == IsCsv(b) && IsCsv(b) == IsCsv(c) {
      KeyLeqTransitive(key(a), key(b), key(c));
    }
  }

  predicate Sorted(key: SortKey, s: seq<string>) {
    forall i, j :: 0 <= i < j < |s| ==> Before(key, s[i], s[j])
  }

  // ---------------------------------------------------------------------
  // Sorting.

  /** Insert `x` in front of the first element it may precede. */
  function Insert(key: SortKey, x: string, s: seq<string>): (r: seq<string>)
    requires Sorted(key, s)
    ensures multiset(r) == multiset(s) + multiset{x}
    ensures Sorted(key, r)
    decreases |s|
  {
    if s == [] then [x]
    else if Before(key, x, s[0]) then
      InsertFrontSorted(key, x, s);
      [x] + s
    else
      var rest := Insert(key, x, s[1..]);
      InsertBehindSorted(key, x, s, rest);
      [s[0]] + rest
  }

  lemma InsertFrontSorted(key: SortKey, x: string, s: seq<string>)
    requires Sorted(key, s) && |s| > 0 && Before(key, x, s[0])
    ensures Sorted(key, [x] + s)
  {
    var r := [x] + s;
    forall i, j | 0 <= i < j < |r| ensures Before(key, r[i], r[j]) {
      if i == 0 && j > 1 {
        BeforeTransitive(key, x, s[0], s[j - 1]);
      }
    }
  }

  lemma InsertBehindSorted(key: SortKey, x: string, s: seq<string>, rest: seq<string>)
    requires Sorted(key, s) && |s| > 0 && !Before(key, x, s[0])
    requires Sorted(key, rest) && multiset(rest) == multiset(s[1..]) + multiset{x}
    ensures Sorted(key, [s[0]] + rest)
    ensures multiset([s[0]] + rest) == multiset(s) + multiset{x}
  {
    var r := [s[0]] + rest;
    BeforeTotal(key, x, s[0]);
    forall k | 0 <= k < |rest| ensures Before(key, s[0], rest[k]) {
      assert rest[k] in multiset(rest);
      if rest[k] != x {
        assert rest[k] in multiset(s[1..]);
        var j :| 0 <= j < |s[1..]| && s[1..][j] == rest[k];
        assert s[j + 1] == rest[k];
      }
    }
    forall i, j | 0 <= i < j < |r| ensures Before(key, r[i], r[j]) {
      if i > 0 {
        assert r[i] == rest[i - 1] && r[j] == rest[j - 1];
      } else {
        assert r[j] == rest[j - 1];
      }
    }
    assert s == [s[0]] + s[1..];
  }

  function Sort(key: SortKey, s: seq<string>): (r: seq<string>)
    ensures multiset(r) == multiset(s)
    ensures Sorted(key, r)
  {
    if s == [] then [] else
      assert s == [s[0]] + s[1..];
      Insert(key, s[0], Sort(key, s[1..]))
  }

  // ---------------------------------------------------------------------
  // The listing.

  /** `files.filter(...)`: the spreadsheet names, in directory order. */
  function Filter(names: seq<string>): (r: seq<string>)
    ensures forall f :: multiset(r)[f] == if IsMepFile(f) then multiset(names)[f] else 0
  {
    if names == [] then []
    else
      assert names == [names[0]] + names[1..];
      (if IsMepFile(names[0]) then [names[0]] else []) + Filter(names[1..])
  }

  /** The body of `GET /api/files` once the directory has been read. */
  function ListMepFiles(key: SortKey, names: seq<string>): (r: seq<string>)
    ensures forall f :: multiset(r)[f] == if IsMepFile(f) then multiset(names)[f] else 0
    ensures forall f :: f in r <==> f in names && IsMepFile(f)
    ensures forall i, j :: 0 <= i < j < |r| && IsCsv(r[j]) ==> IsCsv(r[i])
    ensures forall i, j :: 0 <= i < j < |r| && IsCsv(r[i]) == IsCsv(r[j]) ==> KeyLeq(key(r[i]), key(r[j]))
  {
    var r := Sort(key, Filter(names));
    forall f ensures f in r <==> f in names && IsMepFile(f) {
      assert f in r <==> multiset(r)[f] > 0;
      assert f in names <==> multiset(names)[f] > 0;
    }
    forall i, j | 0 <= i < j < |r|
      ensures IsCsv(r[j]) ==> IsCsv(r[i])
      ensures IsCsv(r[i]) == IsCsv(r[j]) ==> KeyLeq(key(r[i]), key(r[j]))
    {
      BeforeMeaning(key, r[i], r[j]);
    }
    r
  }

  datatype FilesResponse = DirectoryError | Files(names: seq<string>)

  /** `GET /api/files`: a directory that cannot be read is reported as an
      error (500); otherwise the sorted listing. */
  function FilesEndpoint(key: SortKey, listing: Option<seq<string>>): (r: FilesResponse)
    ensures r.DirectoryError? <==> listing.None?
    ensures r.Files? ==> forall f :: f in r.names <==> f in listing.value && IsMepFile(f)
    ensures r.Files? ==> forall f :: multiset(r.names)[f] == if IsMepFile(f) then multiset(listing.value)[f] else 0
    ensures r.Files? ==> forall i, j :: 0 <= i < j < |r.names| && IsCsv(r.names[j]) ==> IsCsv(r.names[i])
    ensures r.Files? ==> forall i, j :: 0 <= i < j < |r.names| && IsCsv(r.names[i]) == IsCsv(r.names[j]) ==> KeyLeq(key(r.names[i]), key(r.names[j]))
  {
    match listing
    case None => DirectoryError
    case Some(names) => Files(ListMepFiles(key, names))
  }
}

=== FILE: front_matter.dfy ===
/** `remove_front_matter`: copy a PDF without its first pages. */
module FrontMatter {
  import opened Wrappers
  import opened Strings
  import ManualIngest

  /** How many pages the tool removes when run as a script. */
  const PAGES_TO_REMOVE := 31

  /** The manual the script cleans, and the copy it writes next to it. */
  const INPUT_STEM := "nih_design_requirements_rev_2.1_2024"
  const INPUT_NAME := INPUT_STEM + ".pdf"
  const OUTPUT_NAME := INPUT_STEM + "_clean.pdf"

  /** The input file as the reader finds it. */
  datatype PdfFile<P> = Absent | Unreadable | Pdf(pages: seq<P>)

  /** `NoInput`: the input path does not exist; `TooShort`: the file has no
      more pages than are to be cut; `Failed`: an exception was caught. */
  datatype Outcome<P> = NoInput | TooShort(total: nat) | Failed | Saved(pages: seq<P>)

  /** The page index that pypdf's page list reads for `i`: negative indices
      count from the end. */
  function Wrap(i: int, total: nat): int {
    if i < 0 then i + total else i
  }

  /** `reader.pages[i]`, which raises outside `-total <= i < total`. */
  function PageAt<P>(pages: seq<P>, i: int): (r: Option<P>)
    ensures r.Some? <==> -|pages| <= i < |pages|
    ensures r.Some? ==> r.value == pages[Wrap(i, |pages|)]
  {
    var j := Wrap(i, |pages|);
    if 0 <= j < |pages| then Some(pages[j]) else None
  }

  /** `remove_front_matter(input, output, pages_to_cut)`; `writable` says
      whether writing the output file succeeds. */
  method RemoveFrontMatter<P>(input: PdfFile<P>, cut: int, writable: bool) returns (o: Outcome<P>)
    ensures o.NoInput? <==> input.Absent?
    ensures input.Unreadable? ==> o.Failed?
    ensures input.Pdf? && |input.pages| <= cut ==> o == TooShort(|input.pages|)
    ensures input.Pdf? && cut < |input.pages| && -|input.pages| <= cut && writable ==> o.Saved?
    ensures input.Pdf? && cut < -|input.pages| ==> o.Failed?
    ensures !writable ==> !o.Saved?
    ensures o.TooShort? ==> input.Pdf? && |input.pages| <= cut
    ensures o.Failed? ==> input.Unreadable?
                          || (input.Pdf? && cut < |input.pages| && (cut < -|input.pages| || !writable))
    ensures o.Saved? ==> input.Pdf? && |o.pages| == |input.pages| - cut
    ensures o.Saved? && cut >= 0 ==> input.pages[..cut] + o.pages == input.pages
    ensures o.Saved? && cut < 0 ==> o.pages == input.pages[|input.pages| + cut..] + input.pages
  {
    if input.Absent? {
      return NoInput;
    }
    if input.Unreadable? {
      return Failed;
    }
    var pages := input.pages;
    var total := |pages|;
    if total <= cut {
      return TooShort(total);
    }
    var out: seq<P> := [];
    var i := cut;
    while i < total
      invariant cut <= i <= total
      invariant |out| == i - cut
      invariant i > cut ==> -total <= cut
      invariant forall k :: 0 <= k < |out| ==> out[k] == pages[Wrap(cut + k, total)]
    {
      var page := PageAt(pages, i);
      if page.None? {
        return Failed;
      }
      out := out + [page.value];
      i := i + 1;
    }
    if !writable {
      return Failed;
    }
    if cut >= 0 {
      assert pages[..cut] + out == pages;
    } else {
      assert out == pages[total + cut..] + pages by {
        forall k | 0 <= k < |out|
          ensures out[k] == (pages[total + cut..] + pages)[k]
        {
          if k < -cut {
            assert (pages[total + cut..] + pages)[k] == pages[total + cut + k];
          } else {
            assert (pages[total + cut..] + pages)[k] == pages[k + cut];
          }
        }
      }
    }
    return Saved(out);
  }

  /** The copy the script writes is what the ingestion loads in place of
      the original when both sit in the manuals directory. */
  lemma CleanedCopyReplacesOriginal(listing: seq<string>)
    requires INPUT_NAME in listing && OUTPUT_NAME in listing
    ensures INPUT_NAME !in ManualIngest.ToLoad(listing)
  {
    var stem := INPUT_STEM;
    var pat := ManualIngest.CLEAN_SUFFIX;
    forall i | 0 <= i <= |stem| - |pat|
      ensures !OccursAt(stem, pat, i)
    {
      assert stem[i..i + |pat|][1] == stem[i + 1];
      assert pat[1] == 'c';
    }
    ManualIngest.CleanCopyShadowsOriginal(listing, stem);
  }
}

=== FILE: git_history.dfy ===
/** The commit log shown by the history view: `git log` lines of the form
    `%H|%an|%ad|%s`, parsed by the backend and by the manifest generator
    with the same code. */
module GitHistory {
  import opened Wrappers
  import opened Strings

  /** A parsed line; destructuring a short array leaves `undefined` fields. */
  datatype Commit = Commit(hash: Option<string>, author: Option<string>, date: Option<string>, message: Option<string>)

  function Field(parts: seq<string>, k: nat): Option<string> {
    if k < |parts| then Some(parts[k]) else None
  }

  /** `const [hash, author, date, message] = line.split('|')`. */
  function ParseLine(line: string): Commit {
    var parts := Split(line, '|');
    Commit(Field(parts, 0), Field(parts, 1), Field(parts, 2), Field(parts, 3))
  }

  /** `.filter(Boolean)` on the lines: the empty ones go. */
  function NonEmpty(lines: seq<string>): (r: seq<string>)
    ensures forall k :: 0 <= k < |r| ==> r[k] != "" && r[k] in lines
    ensures forall k :: 0 <= k < |lines| && lines[k] != "" ==> lines[k] in r
    ensures (forall k :: 0 <= k < |lines| ==> lines[k] != "") ==> r == lines
  {
    if lines == [] then []
    else
      (if lines[0] == "" then [] else [lines[0]]) + NonEmpty(lines[1..])
  }

  /** Every non-empty line is kept as often as it occurs. */
  lemma {:induction false} NonEmptyCounts(lines: seq<string>, l: string)
    requires l != ""
    ensures multiset(NonEmpty(lines))[l] == multiset(lines)[l]
    decreases |lines|
  {
    if lines != [] {
      var h, t := lines[0], lines[1..];
      var head := if h == "" then [] else [h];
      assert NonEmpty(lines) == head + NonEmpty(t);
      assert multiset(lines) == multiset([h]) + multiset(t) by {
        assert lines == [h] + t;
      }
      assert multiset(NonEmpty(lines)) == multiset(head) + multiset(NonEmpty(t));
      NonEmptyCounts(t, l);
    }
  }

  /** The filter works line by line and keeps the order: filtering a
      concatenation concatenates the filtered parts. */
  lemma {:induction false} NonEmptyConcat(a: seq<string>, b: seq<string>)
    ensures NonEmpty(a + b) == NonEmpty(a) + NonEmpty(b)
    decreases |a|
  {
    if a == [] {
      assert a + b == b;
    } else {
      assert (a + b)[1..] == a[1..] + b;
      NonEmptyConcat(a[1..], b);
    }
  }

  /** A single line is dropped exactly when it is empty. */
  lemma NonEmptySingle(l: string)
    ensures NonEmpty([l]) == if l == "" then [] else [l]
  {
  }

  /** `stdout.split('\n').filter(Boolean).map(...)`. */
  function ParseLog(stdout: string): (r: seq<Commit>)
    ensures |r| == |NonEmpty(Split(stdout, '\n'))|
    ensures forall k :: 0 <= k < |r| ==> r[k] == ParseLine(NonEmpty(Split(stdout, '\n'))[k])
  {
    Records(NonEmpty(Split(stdout, '\n')))
  }

  /** `.map(...)` over the kept lines. */
  function Records(lines: seq<string>): (r: seq<Commit>)
    ensures |r| == |lines|
    ensures forall k :: 0 <= k < |lines| ==> r[k] == ParseLine(lines[k])
  {
    seq(|lines|, k requires 0 <= k < |lines| => ParseLine(lines[k]))
  }

  lemma RecordsConcat(a: seq<string>, b: seq<string>)
    ensures Records(a + b) == Records(a) + Records(b)
  {
    var x, y := Records(a + b), Records(a) + Records(b);
    forall k | 0 <= k < |x| ensures x[k] == y[k] {
      assert (a + b)[k] == if k < |a| then a[k] else b[k - |a|];
    }
  }

  /** The record one line contributes: none for an empty line. */
  function LineRecords(line: string): seq<Commit> {
    if line == "" then [] else [ParseLine(line)]
  }

  /** The log is parsed line by line: the first line's record, if any,
      comes first, followed by the records of the rest of the output. */
  lemma ParseLogFirstLine(line: string, rest: string)
    requires '\n' !in line
    ensures ParseLog(line + "\n" + rest) == LineRecords(line) + ParseLog(rest)
  {
    var nl := "\n" + rest;
    assert line + "\n" + rest == line + nl;
    assert nl[1..] == rest;
    SplitAfter(line, nl, '\n');
    NonEmptyConcat([line], Split(rest, '\n'));
    NonEmptySingle(line);
    RecordsConcat(NonEmpty([line]), NonEmpty(Split(rest, '\n')));
    assert Records(NonEmpty([line])) == LineRecords(line);
  }

  /** Output without a line break is one line: one record, or none if empty. */
  lemma ParseLogLastLine(line: string)
    requires '\n' !in line
    ensures ParseLog(line) == LineRecords(line)
  {
    SplitNoSeparator(line, '\n');
  }

  // ---------------------------------------------------------------------
  // The inverse: what git prints.

  /** A field git prints that holds neither separator. */
  predicate Plain(s: string) {
    '|' !in s && '\n' !in s
  }

  /** One line of `git log --pretty=format:"%H|%an|%ad|%s"`. */
  function FormatLine(hash: string, author: string, date: string, subject: string): string {
    hash + ("|" + (author + ("|" + (date + ("|" + subject)))))
  }

  lemma FormatAsJoin(hash: string, author: string, date: string, subject: string)
    ensures FormatLine(hash, author, date, subject) == Join([hash, author, date, subject], "|")
  {
    var parts := [hash, author, date, subject];
    assert parts[1..] == [author, date, subject];
    assert parts[1..][1..] == [date, subject];
    assert parts[1..][1..][1..] == [subject];
    assert Join([subject], "|") == subject;
    assert Join([date, subject], "|") == date + "|" + subject;
    assert Join([author, date, subject], "|") == author + "|" + (date + "|" + subject);
  }

  /** Parsing a line git printed gives back its four fields. */
  lemma ParseFormatted(hash: string, author: string, date: string, subject: string)
    requires Plain(hash) && Plain(author) && Plain(date) && Plain(subject)
    ensures ParseLine(FormatLine(hash, author, date, subject))
         == Commit(Some(hash), Some(author), Some(date), Some(subject))
  {
    FormatAsJoin(hash, author, date, subject);
    var parts := [hash, author, date, subject];
    assert forall k :: 0 <= k < |parts| ==> '|' !in parts[k];
    SplitJoin(parts, '|');
  }

  datatype Entry = Entry(hash: string, author: string, date: string, subject: string)

  predicate PlainEntry(e: Entry) {
    Plain(e.hash) && Plain(e.author) && Plain(e.date) && Plain(e.subject)
  }

  function FormatEntry(e: Entry): string {
    FormatLine(e.hash, e.author, e.date, e.subject)
  }

  function FormatLog(entries: seq<Entry>): (lines: seq<string>)
    ensures |lines| == |entries|
    ensures forall k :: 0 <= k < |entries| ==> lines[k] == FormatEntry(entries[k])
  {
    seq(|entries|, k requires 0 <= k < |entries| => FormatEntry(entries[k]))
  }

  /** The whole log round-trips: one record per printed commit, in order,
      with all four fields. */
  lemma ParseLogRoundTrip(entries: seq<Entry>)
    requires forall k :: 0 <= k < |entries| ==> PlainEntry(entries[k])
    ensures var r := ParseLog(Join(FormatLog(entries), "\n"));
            && |r| == |entries|
            && forall k :: 0 <= k < |entries| ==>
                 r[k] == Commit(Some(entries[k].hash), Some(entries[k].author), Some(entries[k].date), Some(entries[k].subject))
  {
    var lines := FormatLog(entries);
    if entries == [] {
      assert Join(lines, "\n") == "";
    } else {
      forall k | 0 <= k < |lines| ensures '\n' !in lines[k] && lines[k] != "" {
        var e := entries[k];
        assert lines[k] == e.hash + "|" + e.author + "|" + e.date + "|" + e.subject;
        assert lines[k][|e.hash|] == '|';
        if '\n' in lines[k] {
          var i :| 0 <= i < |lines[k]| && lines[k][i] == '\n';
          FormatCharIn(e, i);
        }
      }
      SplitJoin(lines, '\n');
      forall k | 0 <= k < |entries|
        ensures ParseLine(lines[k]) == Commit(Some(entries[k].hash), Some(entries[k].author), Some(entries[k].date), Some(entries[k].subject))
      {
        ParseFormatted(entries[k].hash, entries[k].author, entries[k].date, entries[k].subject);
      }
    }
  }

  /** Every character of a printed line comes from a field or is a bar. */
  lemma FormatCharIn(e: Entry, i: int)
    requires 0 <= i < |FormatEntry(e)|
    ensures var c := FormatEntry(e)[i];
            c == '|' || c in e.hash || c in e.author || c in e.date || c in e.subject
  {
    var s := FormatEntry(e);
    var a := |e.hash|;
    var b := a + 1 + |e.author|;
    var d := b + 1 + |e.date|;
    if i < a {
      assert s[i] == e.hash[i];
    } else if i == a || i == b || i == d {
    } else if i < b {
      assert s[i] == e.author[i - a - 1];
    } else if i < d {
      assert s[i] == e.date[i - b - 1];
    } else {
      assert s[i] == e.subject[i - d - 1];
    }
  }

  /** A subject that itself contains '|' is cut at its first bar. */
  lemma SubjectTruncatedAtBar(hash: string, author: string, date: string, subject: string)
    requires Plain(hash) && Plain(author) && Plain(date)
    ensures var m := ParseLine(FormatLine(hash, author, date, subject)).message;
            m.Some? && StartsWith(subject, m.value) && '|' !in m.value
            && (|m.value| < |subject| ==> subject[|m.value|] == '|')
  {
    var line := FormatLine(hash, author, date, subject);
    var p := Split(subject, '|');
    SplitFormatted(hash, author, date, subject);
    assert ParseLine(line).message == Some(p[0]);
  }

  lemma SplitFormatted(hash: string, author: string, date: string, subject: string)
    requires Plain(hash) && Plain(author) && Plain(date)
    ensures Split(FormatLine(hash, author, date, subject), '|') == [hash, author, date] + Split(subject, '|')
  {
    var t3 := subject;
    var t2 := date + ("|" + t3);
    var t1 := author + ("|" + t2);
    assert FormatLine(hash, author, date, subject) == hash + ("|" + t1);
    SplitAtBar(date, t3);
    SplitAtBar(author, t2);
    SplitAtBar(hash, t1);
    ThreeInFront(hash, author, date, Split(t3, '|'));
  }

  lemma ThreeInFront<T>(a: T, b: T, c: T, rest: seq<T>)
    ensures [a] + ([b] + ([c] + rest)) == [a, b, c] + rest
  {
  }

  lemma SplitAtBar(x: string, tail: string)
    requires '|' !in x
    ensures Split(x + ("|" + tail), '|') == [x] + Split(tail, '|')
  {
    var r := "|" + tail;
    assert r[1..] == tail;
    SplitAfter(x, r, '|');
  }

  /** A line with fewer than four fields leaves the missing ones undefined. */
  lemma ShortLine(line: string)
    requires |Split(line, '|')| < 4
    ensures ParseLine(line).message.None?
    ensures |Split(line, '|')| < 3 ==> ParseLine(line).date.None?
  {
  }

  // ---------------------------------------------------------------------
  // The backend endpoint and its one retry.

  datatype HistoryResponse = GitFailed | History(commits: seq<Commit>) | RedirectRetry

  /** Whether the answer to `GET /api/git-history` asks the client to retry. */
  function HistoryEndpoint(retried: Option<string>, log: Option<string>, shallowMarker: bool, fetched: bool)
    : (r: HistoryResponse)
    ensures r.GitFailed? <==> log.None?
    ensures r.RedirectRetry? <==>
              log.Some? && |ParseLog(log.value)| == 1 && shallowMarker && !Truthy(retried) && fetched
    ensures r.History? ==> r.commits == ParseLog(log.value)
  {
    match log
    case None => GitFailed
    case Some(out) =>
      var history := ParseLog(out);
      if |history| == 1 && shallowMarker && !Truthy(retried) then
        if fetched then RedirectRetry else History(history)
      else History(history)
  }

  /** One run of git and the repository state it sees. */
  datatype GitRun = GitRun(log: Option<string>, shallowMarker: bool, fetched: bool)

  /** A client that follows the redirect: the second request carries
      `retried=true` and is always answered with data or an error. */
  function FetchHistory(first: GitRun, second: GitRun): (r: HistoryResponse)
    ensures !r.RedirectRetry?
    ensures HistoryEndpoint(None, first.log, first.shallowMarker, first.fetched).RedirectRetry?
            ==> r == HistoryEndpoint(Some("true"), second.log, second.shallowMarker, second.fetched)
  {
    var r := HistoryEndpoint(None, first.log, first.shallowMarker, first.fetched);
    if r.RedirectRetry? then HistoryEndpoint(Some("true"), second.log, second.shallowMarker, second.fetched)
    else r
  }

  // ---------------------------------------------------------------------
  // The manifest generator.

  /** `Crashed`: the fallback write threw as well, and the script ends with
      an uncaught error. */
  datatype ManifestRun = Skipped | Written(commits: seq<Commit>) | Crashed

  /** `scripts/gen-history.js`: skip in CI; otherwise write the parsed log,
      or, when git or that write fails, write the empty array to the same
      path. `log` is git's output (`None` when it fails), `firstWrite` and
      `fallbackWrite` say whether the two writes succeed. */
  function GenerateManifest(ciEnvironment: bool, log: Option<string>, firstWrite: bool, fallbackWrite: bool)
    : (r: ManifestRun)
    ensures ciEnvironment <==> r.Skipped?
    ensures !ciEnvironment && log.Some? && firstWrite ==> r == Written(ParseLog(log.value))
    ensures !ciEnvironment && (log.None? || !firstWrite) && fallbackWrite ==> r == Written([])
    ensures r.Crashed? <==> !ciEnvironment && (log.None? || !firstWrite) && !fallbackWrite
  {
    if ciEnvironment then Skipped
    else if log.Some? && firstWrite then Written(ParseLog(log.value))
    else if fallbackWrite then Written([])
    else Crashed
  }

  /** The manifest written outside CI holds the commits git printed, in
      order and with all four fields: the same history the backend serves. */
  lemma ManifestRoundTrip(entries: seq<Entry>, fallbackWrite: bool)
    requires forall k :: 0 <= k < |entries| ==> PlainEntry(entries[k])
    ensures var log := Join(FormatLog(entries), "\n");
            var r := GenerateManifest(false, Some(log), true, fallbackWrite);
            && r.Written? && |r.commits| == |entries|
            && (forall k :: 0 <= k < |entries| ==>
                  r.commits[k] == Commit(Some(entries[k].hash), Some(entries[k].author),
                                         Some(entries[k].date), Some(entries[k].subject)))
            && HistoryEndpoint(Some("true"), Some(log), false, false) == History(r.commits)
  {
    ParseLogRoundTrip(entries);
  }
}

=== FILE: manual_ingest.dfy ===
/** Selection and labelling of the PDF manuals that are loaded into the
    regulatory search index. */
module ManualIngest {
  import opened Wrappers
  import opened Strings

  const PDF_SUFFIX := ".pdf"
  const CLEAN_SUFFIX := "_clean.pdf"

  function Filter(names: seq<string>, suffix: string): (r: seq<string>)
    ensures forall f :: f in r <==> f in names && EndsWith(f, suffix)
    ensures |r| <= |names|
  {
    if names == [] then []
    else (if EndsWith(names[0], suffix) then [names[0]] else []) + Filter(names[1..], suffix)
  }

  /** `pdf_files`: names ending in ".pdf" (the test is case-sensitive). */
  function PdfFiles(listing: seq<string>): seq<string> {
    Filter(listing, PDF_SUFFIX)
  }

  /** `originals_with_clean`: each clean version with every "_clean.pdf"
      replaced by ".pdf". */
  function Originals(pdfFiles: seq<string>): (r: seq<string>)
    ensures |r| == |Filter(pdfFiles, CLEAN_SUFFIX)|
  {
    var clean := Filter(pdfFiles, CLEAN_SUFFIX);
    seq(|clean|, k requires 0 <= k < |clean| => ReplaceAll(clean[k], CLEAN_SUFFIX, PDF_SUFFIX))
  }

  /** The files the loop goes on to load, in listing order. */
  function ToLoad(listing: seq<string>): (r: seq<string>)
    ensures forall f :: f in r <==> f in PdfFiles(listing) && f !in Originals(PdfFiles(listing))
  {
    var pdfs := PdfFiles(listing);
    var originals := Originals(pdfs);
    Unless(pdfs, originals)
  }

  function Unless(names: seq<string>, skip: seq<string>): (r: seq<string>)
    ensures forall f :: f in r <==> f in names && f !in skip
  {
    if names == [] then []
    else (if names[0] in skip then [] else [names[0]]) + Unless(names[1..], skip)
  }

  /** Replacing the clean suffix of `stem + "_clean.pdf"` gives back
      `stem + ".pdf"` when the stem holds no "_clean.pdf" of its own. */
  lemma {:induction false} ReplaceCleanSuffix(stem: string)
    requires !Contains(stem, CLEAN_SUFFIX)
    ensures ReplaceAll(stem + CLEAN_SUFFIX, CLEAN_SUFFIX, PDF_SUFFIX) == stem + PDF_SUFFIX
    decreases |stem|
  {
    var s := stem + CLEAN_SUFFIX;
    if stem == [] {
      assert s[..10] == CLEAN_SUFFIX;
      assert s[10..] == [];
    } else {
      NoMatchAtFront(stem);
      var tail := stem[1..];
      AbsentFromTail(stem);
      assert s[1..] == tail + CLEAN_SUFFIX;
      ReplaceCleanSuffix(tail);
      assert stem == [stem[0]] + tail;
    }
  }

  /** The suffix does not start inside a stem that lacks it: its '_' occurs
      only at its first position. */
  lemma NoMatchAtFront(stem: string)
    requires stem != [] && !Contains(stem, CLEAN_SUFFIX)
    ensures (stem + CLEAN_SUFFIX)[..10] != CLEAN_SUFFIX
  {
    var s := stem + CLEAN_SUFFIX;
    if |stem| >= 10 {
      assert s[..10] == stem[..10];
      assert !OccursAt(stem, CLEAN_SUFFIX, 0);
    } else {
      assert s[..10][|stem|] == '_';
      assert CLEAN_SUFFIX[|stem|] != '_';
    }
  }

  lemma AbsentFromTail(stem: string)
    requires stem != [] && !Contains(stem, CLEAN_SUFFIX)
    ensures !Contains(stem[1..], CLEAN_SUFFIX)
  {
    var tail := stem[1..];
    forall i | 0 <= i <= |tail| - |CLEAN_SUFFIX|
      ensures !OccursAt(tail, CLEAN_SUFFIX, i)
    {
      assert !OccursAt(stem, CLEAN_SUFFIX, i + 1);
      assert tail[i..i + 10] == stem[i + 1..i + 11];
    }
  }

  /** An original whose cleaned copy (as written by the front-matter tool)
      sits in the same directory is not loaded; the copy is. */
  lemma CleanCopyShadowsOriginal(listing: seq<string>, stem: string)
    requires stem + PDF_SUFFIX in listing && stem + CLEAN_SUFFIX in listing
    requires !Contains(stem, CLEAN_SUFFIX)
    ensures stem + PDF_SUFFIX !in ToLoad(listing)
  {
    var pdfs := PdfFiles(listing);
    var clean := stem + CLEAN_SUFFIX;
    assert EndsWith(clean, CLEAN_SUFFIX) by {
      assert clean[|clean| - 10..] == CLEAN_SUFFIX;
    }
    assert EndsWith(clean, PDF_SUFFIX) by {
      assert clean[|clean| - 4..] == PDF_SUFFIX;
    }
    var cleanFiles := Filter(pdfs, CLEAN_SUFFIX);
    assert clean in cleanFiles;
    var k :| 0 <= k < |cleanFiles| && cleanFiles[k] == clean;
    ReplaceCleanSuffix(stem);
    assert Originals(pdfs)[k] == stem + PDF_SUFFIX;
  }

  /** A listing without clean copies is loaded whole (all its PDFs). */
  lemma NoCleanCopies(listing: seq<string>)
    requires forall f :: f in listing ==> !EndsWith(f, CLEAN_SUFFIX)
    ensures ToLoad(listing) == PdfFiles(listing)
  {
    var pdfs := PdfFiles(listing);
    FilterNone(pdfs, CLEAN_SUFFIX);
    UnlessNothing(pdfs, Originals(pdfs));
  }

  lemma {:induction false} FilterNone(names: seq<string>, suffix: string)
    requires forall f :: f in names ==> !EndsWith(f, suffix)
    ensures Filter(names, suffix) == []
    decreases |names|
  {
    if names != [] {
      FilterNone(names[1..], suffix);
    }
  }

  lemma {:induction false} UnlessNothing(names: seq<string>, skip: seq<string>)
    requires skip == []
    ensures Unless(names, skip) == names
    decreases |names|
  {
    if names != [] {
      UnlessNothing(names[1..], skip);
      assert [names[0]] + names[1..] == names;
    }
  }

  // ---------------------------------------------------------------------
  // Loading and page labels.

  /** A page as the PDF loader returns it; `page` is its 0-based index when
      the loader recorded one. */
  datatype LoadedPage = LoadedPage(text: string, page: Option<int>)

  datatype PageLabel = Number(n: int) | NotAvailable

  datatype Document = Document(text: string, sourceManual: string, page: PageLabel)

  /** Loading a file: `None` when the loader raises. */
  type Loader = string -> Option<seq<LoadedPage>>

  /** The metadata loop: name the manual and count pages from 1. */
  function Label(pages: seq<LoadedPage>, filename: string): (docs: seq<Document>)
    ensures |docs| == |pages|
    ensures forall k :: 0 <= k < |docs| ==>
              docs[k].text == pages[k].text && docs[k].sourceManual == filename
              && (pages[k].page.Some? <==> docs[k].page.Number?)
              && (pages[k].page.Some? ==> docs[k].page.n - 1 == pages[k].page.value)
  {
    seq(|pages|, k requires 0 <= k < |pages| =>
      var p := pages[k];
      Document(p.text, filename, if p.page.Some? then Number(p.page.value + 1) else NotAvailable))
  }

  /** The reference: the labelled pages of each file, in order, with a file
      whose loader fails contributing nothing. */
  function Gather(files: seq<string>, load: Loader): seq<Document> {
    if files == [] then []
    else
      var mine := match load(files[0])
        case None => []
        case Some(pages) => Label(pages, files[0]);
      mine + Gather(files[1..], load)
  }

  lemma {:induction false} GatherSnoc(files: seq<string>, f: string, load: Loader)
    ensures Gather(files + [f], load)
         == Gather(files, load) + (match load(f) case None => [] case Some(pages) => Label(pages, f))
    decreases |files|
  {
    if files == [] {
      assert [] + [f] == [f];
    } else {
      assert (files + [f])[1..] == files[1..] + [f];
      GatherSnoc(files[1..], f, load);
    }
  }

  /** Every gathered page names a manual that was selected for loading. */
  lemma {:induction false} GatherSources(files: seq<string>, load: Loader)
    ensures forall d :: d in Gather(files, load) ==> d.sourceManual in files
    decreases |files|
  {
    if files != [] {
      GatherSources(files[1..], load);
    }
  }

  datatype IngestResult = DirectoryMissing | NoDocuments | Ingested(documents: seq<Document>)

  /** The `for filename in pdf_files` loop: skip originals that have a
      clean copy, and collect the labelled pages of every file that loads. */
  method LoadAll(pdfs: seq<string>, originals: seq<string>, load: Loader) returns (documents: seq<Document>)
    ensures documents == Gather(Unless(pdfs, originals), load)
  {
    documents := [];
    var i := 0;
    while i < |pdfs|
      invariant 0 <= i <= |pdfs|
      invariant documents == Gather(Unless(pdfs[..i], originals), load)
    {
      var filename := pdfs[i];
      LoopStep(pdfs[..i], filename, originals, load);
      assert pdfs[..i + 1] == pdfs[..i] + [filename];
      if filename !in originals {
        match load(filename) {
          case None =>
          case Some(pages) =>
            documents := documents + Label(pages, filename);
        }
      }
      i := i + 1;
    }
    assert pdfs[..i] == pdfs;
  }

  lemma LoopStep(done: seq<string>, f: string, skip: seq<string>, load: Loader)
    ensures Gather(Unless(done + [f], skip), load)
         == Gather(Unless(done, skip), load)
            + (if f in skip then [] else match load(f) case None => [] case Some(pages) => Label(pages, f))
  {
    UnlessSnoc(done, f, skip);
    if f !in skip {
      GatherSnoc(Unless(done, skip), f, load);
    } else {
      assert Unless(done + [f], skip) == Unless(done, skip);
    }
  }

  /** `ingest_pdfs` up to the text splitter: the source directory check,
      the clearing of an existing database, and the load loop. */
  method IngestPdfs(directoryExists: bool, databaseExists: bool, listing: seq<string>, load: Loader)
    returns (databaseCleared: bool, result: IngestResult)
    ensures !directoryExists ==> result == DirectoryMissing && !databaseCleared
    ensures directoryExists ==> databaseCleared == databaseExists
    ensures directoryExists && Gather(ToLoad(listing), load) == [] ==> result == NoDocuments
    ensures directoryExists && Gather(ToLoad(listing), load) != [] ==>
              result == Ingested(Gather(ToLoad(listing), load))
  {
    if !directoryExists {
      return false, DirectoryMissing;
    }
    databaseCleared := databaseExists;
    var pdfs := PdfFiles(listing);
    var documents := LoadAll(pdfs, Originals(pdfs), load);
    if documents == [] {
      result := NoDocuments;
    } else {
      result := Ingested(documents);
    }
  }

  lemma {:induction false} UnlessSnoc(names: seq<string>, f: string, skip: seq<string>)
    ensures Unless(names + [f], skip) == Unless(names, skip) + (if f in skip then [] else [f])
    decreases |names|
  {
    if names == [] {
      assert [] + [f] == [f];
    } else {
      assert (names + [f])[1..] == names[1..] + [f];
      UnlessSnoc(names[1..], f, skip);
    }
  }
}

=== FILE: run_audit.dfy ===
/** The backend's audit trigger: the argument check, the call of the
    validation agent, and the scraping of the result path from the agent's
    standard output with the pattern `/- (.+\.json)/`. */
module RunAudit {
  import opened Wrappers
  import opened Strings

  // ---------------------------------------------------------------------
  // The result marker. A match of `- (.+\.json)` starts at `i` and its group
  // ends at `e`: "- ", at least one character, then ".json", all on one line
  // (`.` matches anything but a line terminator).

  predicate LineChar(c: char) {
    c != '\n' && c != '\r' && c != '\U{2028}' && c != '\U{2029}'
  }

  predicate JsonEndAt(s: string, e: int) {
    5 <= e <= |s| && s[e - 5..e] == ".json"
  }

  predicate MatchAt(s: string, i: int, e: int) {
    && 0 <= i && i + 8 <= e <= |s|
    && s[i..i + 2] == "- "
    && JsonEndAt(s, e)
    && forall k :: i + 2 <= k < e ==> LineChar(s[k])
  }

  /** The match a regular-expression engine reports when it starts looking
      at `lo`: the leftmost start, and for it the longest group (`.+` is greedy). */
  ghost predicate LeftmostLongest(s: string, lo: int, i: int, e: int) {
    && lo <= i
    && MatchAt(s, i, e)
    && (forall i', e' :: lo <= i' < i ==> !MatchAt(s, i', e'))
    && (forall e' :: e < e' ==> !MatchAt(s, i, e'))
  }

  /** `g` follows the marker "- " at index `i` of `s`. */
  predicate GroupAt(s: string, g: string, i: int) {
    0 <= i && i + 2 + |g| <= |s| && s[i..i + 2] == "- " && s[i + 2..i + 2 + |g|] == g
  }

  /** The first position at or after `k` that ends the line (or the end of `s`). */
  function LineEnd(s: string, k: int): (end: int)
    requires 0 <= k <= |s|
    ensures k <= end <= |s|
    ensures forall j :: k <= j < end ==> LineChar(s[j])
    ensures end < |s| ==> !LineChar(s[end])
    decreases |s| - k
  {
    if k < |s| && LineChar(s[k]) then LineEnd(s, k + 1) else k
  }

  /** The largest `e` in `lo..hi` where ".json" ends. */
  function LastJsonEnd(s: string, lo: int, hi: int): (r: Option<int>)
    requires 0 <= lo <= hi <= |s|
    ensures r.Some? ==> lo <= r.value <= hi && JsonEndAt(s, r.value)
    ensures r.Some? ==> forall e :: r.value < e <= hi ==> !JsonEndAt(s, e)
    ensures r.None? ==> forall e :: lo <= e <= hi ==> !JsonEndAt(s, e)
    decreases hi
  {
    if JsonEndAt(s, hi) then Some(hi)
    else if hi == lo then None
    else LastJsonEnd(s, lo, hi - 1)
  }

  /** The end of the longest group of a match starting at `i`, if one starts there. */
  function LongestAt(s: string, i: int): (r: Option<int>)
    requires 0 <= i && i + 8 <= |s|
    ensures r.None? ==> forall e :: !MatchAt(s, i, e)
    ensures r.Some? ==> MatchAt(s, i, r.value)
    ensures r.Some? ==> forall e :: r.value < e ==> !MatchAt(s, i, e)
  {
    if s[i..i + 2] != "- " then None
    else
      var end := LineEnd(s, i + 2);
      NoMatchPastLineEnd(s, i, end);
      if end < i + 8 then None else LastJsonEnd(s, i + 8, end)
  }

  /** The group of the first match at or after `lo`. */
  function MatchFrom(s: string, lo: int): (r: Option<string>)
    requires 0 <= lo <= |s|
    ensures r.None? <==> forall i, e :: lo <= i ==> !MatchAt(s, i, e)
    ensures r.Some? ==> exists i, e :: LeftmostLongest(s, lo, i, e) && r.value == s[i + 2..e]
    decreases |s| - lo
  {
    if lo + 8 > |s| then None
    else
      match LongestAt(s, lo)
      case Some(e) =>
        assert LeftmostLongest(s, lo, lo, e);
        Some(s[lo + 2..e])
      case None =>
        var r := MatchFrom(s, lo + 1);
        SkipStart(s, lo, lo + 1, r);
        r
  }

  /** No match starts at `lo`, so the first match from `lo` is the first from `lo + 1`. */
  lemma SkipStart(s: string, lo: int, next: int, r: Option<string>)
    requires 0 <= lo < |s| && next == lo + 1
    requires forall e :: !MatchAt(s, lo, e)
    requires r.None? <==> forall i, e :: next <= i ==> !MatchAt(s, i, e)
    requires r.Some? ==> exists i, e :: LeftmostLongest(s, next, i, e) && r.value == s[i + 2..e]
    ensures r.None? <==> forall i, e :: lo <= i ==> !MatchAt(s, i, e)
    ensures r.Some? ==> exists i, e :: LeftmostLongest(s, lo, i, e) && r.value == s[i + 2..e]
  {
    if r.Some? {
      var i, e :| LeftmostLongest(s, next, i, e) && r.value == s[i + 2..e];
      assert LeftmostLongest(s, lo, i, e);
    }
  }

  /** A match starting at `i` cannot run past the end of its line. */
  lemma NoMatchPastLineEnd(s: string, i: int, end: int)
    requires 0 <= i && i + 2 <= |s| && end == LineEnd(s, i + 2)
    ensures forall e :: end < e ==> !MatchAt(s, i, e)
  {
  }

  /** `stdout.match(/- (.+\.json)/)[1]`, or `None` when nothing matches. */
  function ResultPath(stdout: string): (r: Option<string>)
    ensures r.None? <==> forall i, e :: !MatchAt(stdout, i, e)
    ensures r.Some? ==> EndsWith(r.value, ".json") && |r.value| >= 6
    ensures r.Some? ==> forall k :: 0 <= k < |r.value| ==> LineChar(r.value[k])
    ensures r.Some? ==> exists i :: GroupAt(stdout, r.value, i)
  {
    var r := MatchFrom(stdout, 0);
    if r.Some? then GroupShape(stdout, r); r else r
  }

  lemma GroupShape(stdout: string, r: Option<string>)
    requires r == MatchFrom(stdout, 0) && r.Some?
    ensures EndsWith(r.value, ".json") && |r.value| >= 6
    ensures forall k :: 0 <= k < |r.value| ==> LineChar(r.value[k])
    ensures exists i :: GroupAt(stdout, r.value, i)
  {
    var i, e :| LeftmostLongest(stdout, 0, i, e) && r.value == stdout[i + 2..e];
    MatchShape(stdout, i, e);
  }

  lemma MatchShape(s: string, i: int, e: int)
    requires MatchAt(s, i, e)
    ensures var g := s[i + 2..e];
            && EndsWith(g, ".json") && |g| >= 6
            && (forall k :: 0 <= k < |g| ==> LineChar(g[k]))
            && GroupAt(s, g, i)
  {
    var g := s[i + 2..e];
    assert g[|g| - 5..] == s[e - 5..e];
    forall k | 0 <= k < |g| ensures LineChar(g[k]) {
      assert g[k] == s[i + 2 + k];
    }
  }

  /** The reported match is determined by the output alone. */
  lemma LeftmostLongestUnique(s: string, i: int, e: int, i': int, e': int)
    requires LeftmostLongest(s, 0, i, e) && LeftmostLongest(s, 0, i', e')
    ensures i == i' && e == e'
  {
  }

  /** The standard output of the agent up to its log-path lines, the two lines
      themselves, and whatever follows. */
  function AgentLog(header: string, txt: string, json: string, tail: string): string {
    header + "AUDIT LOGS: \n - " + txt + "\n - " + json + "\n" + tail
  }

  /** The agent prints the two log paths as " - <txt>" and " - <json>" on
      consecutive lines; when nothing earlier in the output contains "- "
      and the text path does not contain ".json", the backend finds the JSON path. */
  lemma AgentOutputLocatesJson(header: string, txt: string, json: string, tail: string)
    requires !Contains(header, "- ")
    requires !Contains(txt, ".json")
    requires forall k :: 0 <= k < |txt| ==> LineChar(txt[k])
    requires forall k :: 0 <= k < |json| ==> LineChar(json[k])
    requires EndsWith(json, ".json") && |json| >= 6
    ensures ResultPath(AgentLog(header, txt, json, tail)) == Some(json)
  {
    var s := AgentLog(header, txt, json, tail);
    var p2 := |header| + 18 + |txt|;
    var e := p2 + 2 + |json|;
    AgentLogLayout(header, txt, json, tail);
    NothingBeforeJsonLine(header, txt, json, tail);
    LastLineMatches(s, json, p2);
    ResultPathOfMatch(s, p2, e);
  }

  /** Whatever the first match is, that is what the backend reads. */
  lemma ResultPathOfMatch(s: string, i: int, e: int)
    requires LeftmostLongest(s, 0, i, e)
    ensures ResultPath(s) == Some(s[i + 2..e])
  {
    var r := ResultPath(s);
    assert r == MatchFrom(s, 0);
    var i0, e0 :| LeftmostLongest(s, 0, i0, e0) && r.value == s[i0 + 2..e0];
    LeftmostLongestUnique(s, i0, e0, i, e);
  }

  lemma NothingBeforeJsonLine(header: string, txt: string, json: string, tail: string)
    requires !Contains(header, "- ")
    requires !Contains(txt, ".json")
    ensures var s := AgentLog(header, txt, json, tail);
            forall i, e :: 0 <= i < |header| + 18 + |txt| ==> !MatchAt(s, i, e)
  {
    var s := AgentLog(header, txt, json, tail);
    var p1 := |header| + 14;
    var nl1 := p1 + 2 + |txt|;
    var p2 := nl1 + 2;
    AgentLogLayout(header, txt, json, tail);
    forall i, e' | 0 <= i < p2 ensures !MatchAt(s, i, e') {
      if i + 2 <= |header| {
        NoMatchInHeader(s, header, i, e');
      } else if i < p1 {
        NoMatchInBanner(s, |header|, i, e');
      } else if i + 2 <= nl1 {
        NoMatchInTxtLine(s, txt, p1 + 2, i, e');
      } else {
        assert s[i] != '-' || s[i + 1] != ' ';
      }
    }
  }

  lemma AgentLogLayout(header: string, txt: string, json: string, tail: string)
    ensures var s := AgentLog(header, txt, json, tail);
            var p1 := |header| + 14;
            var nl1 := p1 + 2 + |txt|;
            var p2 := nl1 + 2;
            var e := p2 + 2 + |json|;
            && e < |s|
            && s[..|header|] == header
            && s[|header|..p1] == "AUDIT LOGS: \n "
            && s[p1 + 2..nl1] == txt
            && s[nl1] == '\n' && s[nl1 + 1] == ' '
            && s[p2..p2 + 2] == "- " && s[p2 + 2..e] == json
            && s[e] == '\n'
  {
    var banner := "AUDIT LOGS: \n - ";
    var a := header + banner;
    var b := a + txt;
    var c := b + "\n - ";
    var d := c + json;
    var s := d + "\n" + tail;
    assert s == AgentLog(header, txt, json, tail);
    assert s[..|d|] == d && d[..|c|] == c && c[..|b|] == b && b[..|a|] == a;
    assert a[..|header|] == header;
    assert a[|header|..|header| + 14] == "AUDIT LOGS: \n ";
    assert b[|a|..] == txt;
    assert c[|b|..] == "\n - ";
    assert d[|c|..] == json;
  }

  lemma NoMatchInHeader(s: string, header: string, i: int, e: int)
    requires |header| <= |s| && s[..|header|] == header
    requires !Contains(header, "- ")
    requires 0 <= i && i + 2 <= |header|
    ensures !MatchAt(s, i, e)
  {
    assert !OccursAt(header, "- ", i);
    assert header[i..i + 2] == s[i..i + 2];
  }

  lemma NoMatchInBanner(s: string, at: int, i: int, e: int)
    requires 0 <= at && at + 14 <= |s| && s[at..at + 14] == "AUDIT LOGS: \n "
    requires at - 1 <= i < at + 14 && 0 <= i
    ensures !MatchAt(s, i, e)
  {
    if i == at - 1 {
      assert s[i + 1] == s[at..at + 14][0] == 'A';
      assert i + 2 <= |s| && s[i..i + 2][1] == s[i + 1];
    } else {
      assert s[i] == s[at..at + 14][i - at];
    }
  }

  lemma NoMatchInTxtLine(s: string, txt: string, at: int, i: int, e: int)
    requires 2 <= at && at + |txt| < |s| && s[at..at + |txt|] == txt && s[at + |txt|] == '\n'
    requires !Contains(txt, ".json")
    requires at - 2 <= i && i + 2 <= at + |txt|
    ensures !MatchAt(s, i, e)
  {
    var nl := at + |txt|;
    if e > nl {
      assert !LineChar(s[nl]);
    } else if e >= i + 8 {
      var w, t := s[e - 5..e], txt[e - 5 - at..e - at];
      forall k | 0 <= k < 5 ensures w[k] == t[k] {
        assert s[e - 5 + k] == s[at..at + |txt|][e - 5 + k - at];
      }
      assert !OccursAt(txt, ".json", e - 5 - at);
    }
  }

  lemma LastLineMatches(s: string, json: string, p: int)
    requires 0 <= p && p + 2 + |json| < |s| && s[p..p + 2] == "- " && s[p + 2..p + 2 + |json|] == json
    requires s[p + 2 + |json|] == '\n'
    requires forall k :: 0 <= k < |json| ==> LineChar(json[k])
    requires EndsWith(json, ".json") && |json| >= 6
    requires forall i, e :: 0 <= i < p ==> !MatchAt(s, i, e)
    ensures LeftmostLongest(s, 0, p, p + 2 + |json|)
  {
    var e := p + 2 + |json|;
    assert s[e - 5..e] == s[p + 2..e][|json| - 5..];
    forall k | p + 2 <= k < e ensures LineChar(s[k]) {
      assert s[k] == json[k - p - 2];
    }
    assert MatchAt(s, p, e);
    forall e' | e < e' ensures !MatchAt(s, p, e') {
      assert !LineChar(s[e]);
    }
  }

  // ---------------------------------------------------------------------
  // The endpoint.

  datatype AuditRequest = AuditRequest(fileName: Option<string>, jobRef: Option<string>, fileContent: Option<string>)

  /** What the handler does to the world. */
  datatype Effect = WriteFile(path: string, content: string) | Spawn(command: string)

  /** What the agent process reported. */
  datatype ExecResult = ExecResult(failed: bool, stdout: string, stderr: string)

  datatype AuditResponse =
    | MissingArguments
    | SaveFailed
    | ExecutionFailed(details: string)
    | ResultNotLocated
    | ResultUnreadable
    | Report(json: string)

  function StatusCode(r: AuditResponse): int {
    match r
    case MissingArguments => 400
    case Report(_) => 200
    case _ => 500
  }

  datatype AuditOutcome = AuditOutcome(effects: seq<Effect>, response: AuditResponse)

  const SCRIPT := "mep_validator_agent_v2.py"

  /** Node's `path.join(PROJECT_ROOT, name)` for a plain relative name under
      the fixed project root (which never ends in '/'). */
  function UnderRoot(root: string, name: string): string {
    root + "/" + name
  }

  /** The shell command line that runs the agent in headless mode. */
  function Command(root: string, fileName: string, jobRef: string): string {
    "python3 \"" + UnderRoot(root, SCRIPT) + "\" --file \"" + UnderRoot(root, fileName) + "\" --job \"" + jobRef + "\""
  }

  /** `POST /api/run-audit`. The upload is written when the request carries
      content; `saved` says whether that write succeeded, `run` is what the
      agent process did, and `readFile` is the file system at the time the
      result is read. */
  function HandleRunAudit(root: string, req: AuditRequest, saved: bool, run: ExecResult,
                          readFile: string -> Option<string>): (r: AuditOutcome)
    ensures StatusCode(r.response) == 400 <==> !Truthy(req.fileName) || !Truthy(req.jobRef)
    ensures StatusCode(r.response) == 400 ==> r.effects == []
    ensures (exists k :: 0 <= k < |r.effects| && r.effects[k].Spawn?) ==>
              Truthy(req.fileName) && Truthy(req.jobRef) && (saved || !Truthy(req.fileContent))
    ensures (exists k :: 0 <= k < |r.effects| && r.effects[k].WriteFile?) <==>
              Truthy(req.fileName) && Truthy(req.jobRef) && Truthy(req.fileContent)
    ensures Truthy(req.fileName) && Truthy(req.jobRef) && Truthy(req.fileContent) ==>
              |r.effects| > 0 && r.effects[0] == WriteFile(UnderRoot(root, req.fileName.value), req.fileContent.value)
    ensures Truthy(req.fileName) && Truthy(req.jobRef) && (saved || !Truthy(req.fileContent)) ==>
              && |r.effects| > 0 && r.effects[|r.effects| - 1] == Spawn(Command(root, req.fileName.value, req.jobRef.value))
              && (run.failed ==> r.response == ExecutionFailed(run.stderr))
              && (!run.failed && ResultPath(run.stdout).None? ==> r.response == ResultNotLocated)
              && (!run.failed && ResultPath(run.stdout).Some? ==>
                    match readFile(ResultPath(run.stdout).value)
                    case None => r.response == ResultUnreadable
                    case Some(data) => r.response == Report(data))
    ensures Truthy(req.fileName) && Truthy(req.jobRef) && Truthy(req.fileContent) && !saved ==>
              r.response == SaveFailed
    ensures r.response.Report? ==> !run.failed && ResultPath(run.stdout).Some?
                                   && readFile(ResultPath(run.stdout).value) == Some(r.response.json)
  {
    if !Truthy(req.fileName) || !Truthy(req.jobRef) then AuditOutcome([], MissingArguments)
    else
      var filePath := UnderRoot(root, req.fileName.value);
      var writes := if Truthy(req.fileContent) then [WriteFile(filePath, req.fileContent.value)] else [];
      assert Truthy(req.fileContent) ==> writes[0].WriteFile?;
      if Truthy(req.fileContent) && !saved then AuditOutcome(writes, SaveFailed)
      else
        var effects := writes + [Spawn(Command(root, req.fileName.value, req.jobRef.value))];
        assert effects[|effects| - 1].Spawn?;
        assert Truthy(req.fileContent) ==> effects[0].WriteFile?;
        assert !Truthy(req.fileContent) ==> effects == [Spawn(Command(root, req.fileName.value, req.jobRef.value))];
        if run.failed then AuditOutcome(effects, ExecutionFailed(run.stderr))
        else
          match ResultPath(run.stdout)
          case None => AuditOutcome(effects, ResultNotLocated)
          case Some(path) =>
            match readFile(path)
            case None => AuditOutcome(effects, ResultUnreadable)
            case Some(data) => AuditOutcome(effects, Report(data))
  }

  /** End to end: a valid request whose upload was stored runs the agent; when
      the agent succeeds and prints its two log paths, the backend answers
      with the content of the JSON report the agent named. */
  lemma AuditAnswersWithAgentReport(root: string, req: AuditRequest, saved: bool,
                                    header: string, txt: string, json: string, tail: string, stderr: string,
                                    readFile: string -> Option<string>, report: string)
    requires Truthy(req.fileName) && Truthy(req.jobRef) && (saved || !Truthy(req.fileContent))
    requires !Contains(header, "- ")
    requires !Contains(txt, ".json")
    requires forall k :: 0 <= k < |txt| ==> LineChar(txt[k])
    requires forall k :: 0 <= k < |json| ==> LineChar(json[k])
    requires EndsWith(json, ".json") && |json| >= 6
    requires readFile(json) == Some(report)
    ensures var r := HandleRunAudit(root, req, saved, ExecResult(false, AgentLog(header, txt, json, tail), stderr), readFile);
            && r.response == Report(report) && StatusCode(r.response) == 200
            && Spawn(Command(root, req.fileName.value, req.jobRef.value)) in r.effects
  {
    AgentOutputLocatesJson(header, txt, json, tail);
  }
}

=== FILE: safe_escape.dfy ===
/** The dashboard's `safeEscape`, which prepares text for a single-quoted
    JavaScript string inside an HTML attribute (`onclick="f('…')"`), and the
    decoding the browser applies to such an attribute. */
module SafeEscape {
  import opened Wrappers
  import opened Strings

  /** One global replacement of a character by a string. */
  datatype Step = Step(pat: char, rep: string)

  /** Apply the replacements in order, each to the output of the previous one. */
  function Chain(s: string, steps: seq<Step>): string
    decreases |steps|
  {
    if steps == [] then s else Chain(ReplaceAll(s, [steps[0].pat], steps[0].rep), steps[1..])
  }

  /** The five `.replace` calls of `safeEscape`, in source order. */
  const STEPS: seq<Step> := [
    Step('\\', "\\\\"),
    Step('\'', "\\'"),
    Step('"', "&quot;"),
    Step('\n', "\\n"),
    Step('\r', "\\r")
  ]

  /** `safeEscape(str)`: falsy input gives ''. */
  function SafeEscape(str: Option<string>): (r: string)
    ensures !Truthy(str) ==> r == ""
    ensures Clean(r)
    ensures Truthy(str) && (forall k :: 0 <= k < |str.value| ==> !Special(str.value[k])) ==> r == str.value
  {
    if !Truthy(str) then ""
    else
      SafeEscapePerChar(str.value);
      NoRawQuoteOrBreak(str.value);
      if forall k :: 0 <= k < |str.value| ==> !Special(str.value[k]) then
        EscapeIdentity(str.value);
        Chain(str.value, STEPS)
      else Chain(str.value, STEPS)
  }

  /** The characters `safeEscape` rewrites. */
  predicate Special(c: char) {
    c == '\\' || c == '\'' || c == '"' || c == '\n' || c == '\r'
  }

  /** What the five replacements do to a single character. */
  function EscapeChar(c: char): string {
    if c == '\\' then "\\\\"
    else if c == '\'' then "\\'"
    else if c == '"' then "&quot;"
    else if c == '\n' then "\\n"
    else if c == '\r' then "\\r"
    else [c]
  }

  /** No raw double quote (which would end the attribute) and no line break
      (which would end the string literal). */
  predicate Clean(r: string) {
    forall k :: 0 <= k < |r| ==> r[k] != '"' && r[k] != '\n' && r[k] != '\r'
  }

  /** No single-character escape holds a raw double quote or line break. */
  lemma CharClean(c: char)
    ensures Clean(FixedEscapeChar(c)) && Clean(EscapeChar(c))
  {
    if c == '&' {
      var e := "&amp;";
      assert e[0] == '&' && e[1] == 'a' && e[2] == 'm' && e[3] == 'p' && e[4] == ';';
    }
    if c == '"' {
      var e := "&quot;";
      assert e[0] == '&' && e[1] == 'q' && e[2] == 'u' && e[3] == 'o' && e[4] == 't' && e[5] == ';';
    }
  }

  function EscapeEach(s: string): string {
    if s == [] then [] else EscapeChar(s[0]) + EscapeEach(s[1..])
  }

  // ---------------------------------------------------------------------
  // The chain works character by character.

  lemma {:induction false} ReplaceCharAbsent(s: string, p: char, rep: string)
    requires p !in s
    ensures ReplaceAll(s, [p], rep) == s
    decreases |s|
  {
    if s != [] {
      ReplaceCharCons(s[0], s[1..], p, rep);
      ReplaceCharAbsent(s[1..], p, rep);
      assert [s[0]] + s[1..] == s;
    }
  }

  lemma {:induction false} ReplaceCharConcat(a: string, b: string, p: char, rep: string)
    ensures ReplaceAll(a + b, [p], rep) == ReplaceAll(a, [p], rep) + ReplaceAll(b, [p], rep)
    decreases |a|
  {
    if a == [] {
      assert a + b == b;
    } else {
      var h, t := a[0], a[1..];
      assert a == [h] + t;
      assert a + b == [h] + (t + b);
      ReplaceCharCons(h, t + b, p, rep);
      ReplaceCharCons(h, t, p, rep);
      ReplaceCharConcat(t, b, p, rep);
    }
  }

  lemma {:induction false} ChainConcat(a: string, b: string, steps: seq<Step>)
    ensures Chain(a + b, steps) == Chain(a, steps) + Chain(b, steps)
    decreases |steps|
  {
    if steps != [] {
      var st := steps[0];
      ReplaceCharConcat(a, b, st.pat, st.rep);
      ChainConcat(ReplaceAll(a, [st.pat], st.rep), ReplaceAll(b, [st.pat], st.rep), steps[1..]);
    }
  }

  /** A chain leaves alone a string none of whose steps' characters it holds. */
  lemma {:induction false} ChainAbsent(s: string, steps: seq<Step>)
    requires forall k :: 0 <= k < |steps| ==> steps[k].pat !in s
    ensures Chain(s, steps) == s
    decreases |steps|
  {
    if steps != [] {
      ReplaceCharAbsent(s, steps[0].pat, steps[0].rep);
      ChainAbsent(s, steps[1..]);
    }
  }

  lemma EscapeCharTable(c: char)
    ensures Chain([c], STEPS) == EscapeChar(c)
  {
    var s := [c];
    var r1 := ReplaceAll(s, ['\\'], "\\\\");
    ReplaceCharCons(c, [], '\\', "\\\\");
    assert r1 == if c == '\\' then "\\\\" else s;
    var r2 := ReplaceAll(r1, ['\''], "\\'");
    if c == '\\' {
      ChainAbsent(r1, STEPS[1..]);
    } else {
      ReplaceCharCons(c, [], '\'', "\\'");
      if c == '\'' {
        assert r2 == "\\'";
        ChainAbsent(r2, STEPS[2..]);
      } else {
        var r3 := ReplaceAll(r2, ['"'], "&quot;");
        ReplaceCharCons(c, [], '"', "&quot;");
        if c == '"' {
          assert r3 == "&quot;";
          ChainAbsent(r3, STEPS[3..]);
        } else {
          var r4 := ReplaceAll(r3, ['\n'], "\\n");
          ReplaceCharCons(c, [], '\n', "\\n");
          if c == '\n' {
            assert r4 == "\\n";
            ChainAbsent(r4, STEPS[4..]);
          } else {
            ReplaceCharCons(c, [], '\r', "\\r");
            assert STEPS[4..] == [Step('\r', "\\r")];
          }
        }
      }
    }
  }

  lemma {:induction false} SafeEscapePerChar(s: string)
    ensures Chain(s, STEPS) == EscapeEach(s)
    decreases |s|
  {
    if s == [] {
      ChainAbsent(s, STEPS);
    } else {
      assert s == [s[0]] + s[1..];
      ChainConcat([s[0]], s[1..], STEPS);
      EscapeCharTable(s[0]);
      SafeEscapePerChar(s[1..]);
    }
  }

  lemma {:induction false} NoRawQuoteOrBreak(s: string)
    ensures Clean(EscapeEach(s))
    decreases |s|
  {
    if s != [] {
      NoRawQuoteOrBreak(s[1..]);
      var e := EscapeChar(s[0]);
      var rest := EscapeEach(s[1..]);
      assert EscapeEach(s) == e + rest;
      assert forall k :: 0 <= k < |e| ==> (e + rest)[k] == e[k];
      CharClean(s[0]);
      forall k | 0 <= k < |e| + |rest|
        ensures (e + rest)[k] != '"' && (e + rest)[k] != '\n' && (e + rest)[k] != '\r'
      {
        if k < |e| {
          assert (e + rest)[k] == e[k];
        } else {
          assert (e + rest)[k] == rest[k - |e|];
          assert Clean(rest);
        }
      }
    }
  }

  lemma {:induction false} EscapeIdentity(s: string)
    requires forall k :: 0 <= k < |s| ==> !Special(s[k])
    ensures EscapeEach(s) == s
    decreases |s|
  {
    if s != [] {
      EscapeIdentity(s[1..]);
      assert [s[0]] + s[1..] == s;
    }
  }

  // ---------------------------------------------------------------------
  // What the browser makes of the attribute. The HTML parser replaces
  // character references in the attribute value (only `&quot;` and `&amp;`
  // are modelled); the JavaScript parser then reads the quoted literal.

  function HtmlDecode(s: string): string
    decreases |s|
  {
    if s == [] then []
    else if StartsWith(s, "&quot;") then "\"" + HtmlDecode(s[6..])
    else if StartsWith(s, "&amp;") then "&" + HtmlDecode(s[5..])
    else [s[0]] + HtmlDecode(s[1..])
  }

  /** The value of a single-quoted JavaScript string literal body. */
  function JsUnescape(s: string): string
    decreases |s|
  {
    if s == [] then []
    else if s[0] == '\\' && |s| >= 2 then
      var c := if s[1] == 'n' then '\n' else if s[1] == 'r' then '\r' else s[1];
      [c] + JsUnescape(s[2..])
    else [s[0]] + JsUnescape(s[1..])
  }

  /** The string a handler such as `copyToClipboard('…')` receives. */
  function Received(attribute: string): string {
    JsUnescape(HtmlDecode(attribute))
  }

  /** As written, text holding a character reference does not survive:
      "&quot;" is passed through unchanged and reaches the handler as '"'. */
  lemma AmpersandNotEscaped()
    ensures SafeEscape(Some("&quot;")) == "&quot;"
    ensures Received(SafeEscape(Some("&quot;"))) == "\""
  {
    var s := "&quot;";
    assert forall k :: 0 <= k < |s| ==> !Special(s[k]);
    assert StartsWith(s, "&quot;");
    assert s[6..] == [];
  }

  /** The corrected escape: '&' becomes "&amp;" before anything else. */
  const FIXED_STEPS: seq<Step> := [Step('&', "&amp;")] + STEPS

  function FixedEscapeChar(c: char): string {
    if c == '&' then "&amp;" else EscapeChar(c)
  }

  function FixedEscapeEach(s: string): string {
    if s == [] then [] else FixedEscapeChar(s[0]) + FixedEscapeEach(s[1..])
  }

  /** `safeEscape` with `.replace(/&/g, '&amp;')` placed first. */
  function FixedSafeEscape(str: Option<string>): (r: string)
    ensures !Truthy(str) ==> r == ""
    ensures Truthy(str) ==> Received(r) == str.value
    ensures Clean(r)
  {
    if !Truthy(str) then ""
    else
      FixedPerChar(str.value);
      FixedRoundTrip(str.value);
      FixedNoRawQuoteOrBreak(str.value);
      Chain(str.value, FIXED_STEPS)
  }

  lemma FixedCharTable(c: char)
    ensures Chain([c], FIXED_STEPS) == FixedEscapeChar(c)
  {
    ReplaceCharCons(c, [], '&', "&amp;");
    assert FIXED_STEPS[1..] == STEPS;
    if c == '&' {
      assert ReplaceAll([c], ['&'], "&amp;") == "&amp;";
      ChainAbsent("&amp;", STEPS);
    } else {
      assert ReplaceAll([c], ['&'], "&amp;") == [c];
      EscapeCharTable(c);
    }
  }

  lemma {:induction false} FixedPerChar(s: string)
    ensures Chain(s, FIXED_STEPS) == FixedEscapeEach(s)
    decreases |s|
  {
    if s == [] {
      ChainAbsent(s, FIXED_STEPS);
    } else {
      assert s == [s[0]] + s[1..];
      ChainConcat([s[0]], s[1..], FIXED_STEPS);
      FixedCharTable(s[0]);
      FixedPerChar(s[1..]);
    }
  }

  /** The JavaScript-level escape that remains once the HTML layer is decoded. */
  function JsEscapeChar(c: char): string {
    if c == '\\' then "\\\\"
    else if c == '\'' then "\\'"
    else if c == '\n' then "\\n"
    else if c == '\r' then "\\r"
    else [c]
  }

  function JsEscapeEach(s: string): string {
    if s == [] then [] else JsEscapeChar(s[0]) + JsEscapeEach(s[1..])
  }

  lemma HtmlDecodeChar(c: char, rest: string)
    ensures HtmlDecode(FixedEscapeChar(c) + rest) == JsEscapeChar(c) + HtmlDecode(rest)
  {
    if c == '&' {
      HtmlDecodeAmp(rest);
    } else if c == '"' {
      HtmlDecodeQuot(rest);
    } else {
      var e := JsEscapeChar(c);
      assert FixedEscapeChar(c) == e;
      assert forall k :: 0 <= k < |e| ==> e[k] != '&';
      HtmlDecodePlain(e, rest);
    }
  }

  lemma HtmlDecodeAmp(rest: string)
    ensures HtmlDecode("&amp;" + rest) == "&" + HtmlDecode(rest)
  {
    var x := "&amp;" + rest;
    assert !StartsWith(x, "&quot;") by { assert x[1] == 'a'; }
    assert x[..5] == "&amp;";
    assert x[5..] == rest;
  }

  lemma HtmlDecodeQuot(rest: string)
    ensures HtmlDecode("&quot;" + rest) == "\"" + HtmlDecode(rest)
  {
    var x := "&quot;" + rest;
    assert x[..6] == "&quot;";
    assert x[6..] == rest;
  }

  /** Text without an ampersand passes the HTML layer unchanged. */
  lemma {:induction false} HtmlDecodePlain(e: string, rest: string)
    requires forall k :: 0 <= k < |e| ==> e[k] != '&'
    ensures HtmlDecode(e + rest) == e + HtmlDecode(rest)
    decreases |e|
  {
    var x := e + rest;
    if e == [] {
      assert x == rest;
    } else {
      HtmlDecodeOther(x);
      assert x[1..] == e[1..] + rest;
      HtmlDecodePlain(e[1..], rest);
      assert e == [e[0]] + e[1..];
    }
  }

  /** A character other than an ampersand is copied. */
  lemma HtmlDecodeOther(x: string)
    requires x != [] && x[0] != '&'
    ensures HtmlDecode(x) == [x[0]] + HtmlDecode(x[1..])
  {
    assert !StartsWith(x, "&quot;") && !StartsWith(x, "&amp;") by {
      assert |x| >= 5 ==> x[..5][0] == x[0];
    }
  }

  lemma {:induction false} HtmlLayer(s: string)
    ensures HtmlDecode(FixedEscapeEach(s)) == JsEscapeEach(s)
    decreases |s|
  {
    if s != [] {
      HtmlDecodeChar(s[0], FixedEscapeEach(s[1..]));
      HtmlLayer(s[1..]);
    }
  }

  lemma {:induction false} JsLayer(s: string)
    ensures JsUnescape(JsEscapeEach(s)) == s
    decreases |s|
  {
    if s != [] {
      var c := s[0];
      var rest := JsEscapeEach(s[1..]);
      var x := JsEscapeChar(c) + rest;
      JsLayer(s[1..]);
      if c == '\\' || c == '\'' || c == '\n' || c == '\r' {
        assert x[2..] == rest;
      } else {
        assert x[1..] == rest;
      }
      assert [c] + s[1..] == s;
    }
  }

  lemma FixedRoundTrip(s: string)
    ensures Received(FixedEscapeEach(s)) == s
  {
    HtmlLayer(s);
    JsLayer(s);
  }

  lemma {:induction false} FixedNoRawQuoteOrBreak(s: string)
    ensures Clean(FixedEscapeEach(s))
    decreases |s|
  {
    if s != [] {
      FixedNoRawQuoteOrBreak(s[1..]);
      var e := FixedEscapeChar(s[0]);
      var rest := FixedEscapeEach(s[1..]);
      assert FixedEscapeEach(s) == e + rest;
      assert forall k :: 0 <= k < |e| ==> (e + rest)[k] == e[k];
      CharClean(s[0]);
      forall k | 0 <= k < |e| + |rest|
        ensures (e + rest)[k] != '"' && (e + rest)[k] != '\n' && (e + rest)[k] != '\r'
      {
        if k < |e| {
          assert (e + rest)[k] == e[k];
        } else {
          assert (e + rest)[k] == rest[k - |e|];
          assert Clean(rest);
        }
      }
    }
  }
}

=== FILE: standards_search.dfy ===
/** The dashboard's local search through the nested standards reference:
    a depth-first walk that collects every text entry whose key or value
    contains the query, of which the first five are shown. */
module StandardsSearch {
  import opened Strings

  /** A value of the reference: text, or an object of ordered entries. */
  datatype Node = Text(text: string) | Object(entries: seq<Entry>)
  datatype Entry = Entry(key: string, value: Node)

  /** One search result: the entry's key and text, and the path of the
      object holding it, written " > A > B" (empty at the top level). */
  datatype Hit = Hit(key: string, value: string, path: string)

  /** The lower-cased query occurs in the lower-cased value or key. */
  predicate Matches(key: string, value: string, query: string) {
    Contains(Lower(value), query) || Contains(Lower(key), query)
  }

  /** Every text entry in depth-first order, with its path: the reference
      the search is measured against. */
  function Leaves(entries: seq<Entry>, path: string): seq<Hit>
    decreases entries
  {
    if entries == [] then []
    else
      var e := entries[0];
      var first := match e.value
        case Object(children) => Leaves(children, path + " > " + e.key)
        case Text(v) => [Hit(e.key, v, path)];
      first + Leaves(entries[1..], path)
  }

  /** `search(obj, path)` from `performSearch`, pushing onto `results`. */
  function Search(entries: seq<Entry>, path: string, query: string): (hits: seq<Hit>)
    ensures forall h :: h in hits ==> h in Leaves(entries, path) && Matches(h.key, h.value, query)
    decreases entries
  {
    SearchFiltersLeaves(entries, path, query);
    if entries == [] then []
    else
      var e := entries[0];
      var first := match e.value
        case Object(children) => Search(children, path + " > " + e.key, query)
        case Text(v) => if Matches(e.key, v, query) then [Hit(e.key, v, path)] else [];
      first + Search(entries[1..], path, query)
  }

  function Keep(hits: seq<Hit>, query: string): seq<Hit> {
    if hits == [] then []
    else (if Matches(hits[0].key, hits[0].value, query) then [hits[0]] else [])
         + Keep(hits[1..], query)
  }

  lemma {:induction false} KeepConcat(a: seq<Hit>, b: seq<Hit>, query: string)
    ensures Keep(a + b, query) == Keep(a, query) + Keep(b, query)
    decreases |a|
  {
    if a != [] {
      assert (a + b)[1..] == a[1..] + b;
      KeepConcat(a[1..], b, query);
    } else {
      assert a + b == b;
    }
  }

  lemma {:induction false} KeepMembers(hits: seq<Hit>, query: string)
    ensures forall h :: h in Keep(hits, query) <==> h in hits && Matches(h.key, h.value, query)
    decreases |hits|
  {
    if hits != [] {
      KeepMembers(hits[1..], query);
      assert hits == [hits[0]] + hits[1..];
    }
  }

  /** The search keeps exactly the matching leaves, in depth-first order. */
  lemma {:induction false} SearchIsFilteredLeaves(entries: seq<Entry>, path: string, query: string)
    ensures Search(entries, path, query) == Keep(Leaves(entries, path), query)
    decreases entries
  {
    if entries != [] {
      var e := entries[0];
      match e.value {
        case Object(children) =>
          SearchIsFilteredLeaves(children, path + " > " + e.key, query);
        case Text(v) =>
          assert Keep([Hit(e.key, v, path)], query)
              == (if Matches(e.key, v, query) then [Hit(e.key, v, path)] else []);
      }
      var first := match e.value
        case Object(children) => Leaves(children, path + " > " + e.key)
        case Text(v) => [Hit(e.key, v, path)];
      KeepConcat(first, Leaves(entries[1..], path), query);
      SearchIsFilteredLeaves(entries[1..], path, query);
    }
  }

  lemma SearchFiltersLeaves(entries: seq<Entry>, path: string, query: string)
    ensures forall h :: (h in Keep(Leaves(entries, path), query))
                        <==> (h in Leaves(entries, path) && Matches(h.key, h.value, query))
  {
    KeepMembers(Leaves(entries, path), query);
  }

  /** A leaf is found if and only if it matches. */
  lemma SearchFindsExactlyMatches(entries: seq<Entry>, query: string, h: Hit)
    ensures h in Search(entries, "", query)
            <==> h in Leaves(entries, "") && Matches(h.key, h.value, query)
  {
    SearchIsFilteredLeaves(entries, "", query);
    KeepMembers(Leaves(entries, ""), query);
  }

  /** A longer query (one containing the shorter) finds no entry the
      shorter one misses. */
  lemma NarrowingQuery(entries: seq<Entry>, query: string, longer: string, h: Hit)
    requires Contains(longer, query)
    requires h in Search(entries, "", longer)
    ensures h in Search(entries, "", query)
  {
    SearchFindsExactlyMatches(entries, longer, h);
    SearchFindsExactlyMatches(entries, query, h);
    if Contains(Lower(h.value), longer) {
      ContainsTransitive(Lower(h.value), longer, query);
    } else {
      ContainsTransitive(Lower(h.key), longer, query);
    }
  }

  /** `results.slice(0, 5)`. */
  function TopFive(hits: seq<Hit>): (shown: seq<Hit>)
    ensures |shown| == if |hits| < 5 then |hits| else 5
    ensures shown <= hits
  {
    if |hits| <= 5 then hits else hits[..5]
  }

  datatype SearchView = Hidden | Shown(local: seq<Hit>)

  /** `performSearch(query)` with the query already lower-cased by its
      callers; an empty query hides the results panel. */
  function PerformSearch(db: seq<Entry>, query: string): (view: SearchView)
    ensures view.Hidden? <==> query == ""
    ensures view.Shown? ==>
              |view.local| <= 5
              && (forall h :: h in view.local ==> h in Leaves(db, "") && Matches(h.key, h.value, query))
              && (|view.local| < 5 ==> view.local == Keep(Leaves(db, ""), query))
    ensures view.Shown? ==>
              && view.local <= Keep(Leaves(db, ""), query)
              && |view.local| == if |Keep(Leaves(db, ""), query)| < 5 then |Keep(Leaves(db, ""), query)| else 5
  {
    if query == "" then Hidden
    else
      SearchIsFilteredLeaves(db, "", query);
      Shown(TopFive(Search(db, "", query)))
  }

  /** What the input box passes on: the typed text, lower-cased. */
  function QueryOf(typed: string): (q: string)
    ensures |q| == |typed|
    ensures forall i :: 0 <= i < |q| ==> q[i] == LowerChar(typed[i])
    ensures forall i :: 0 <= i < |q| ==> !('A' <= q[i] <= 'Z')
  {
    Lower(typed)
  }

  /** Because the query is lower-cased, the search ignores ASCII case. */
  lemma CaseInsensitive(db: seq<Entry>, typed: string, h: Hit)
    requires h in Leaves(db, "")
    requires Contains(Lower(h.value), Lower(typed))
    ensures typed != "" ==> PerformSearch(db, QueryOf(typed)).Shown?
    ensures h in Search(db, "", QueryOf(typed))
  {
    SearchFindsExactlyMatches(db, QueryOf(typed), h);
  }

  /** A nested entry is reported with the path of the objects above it. */
  lemma NestedPath()
    ensures Search([Entry("ISO_14644", Object([Entry("Part_1", Object([Entry("ISO_7", Text("Class 10,000"))]))]))], "", "class")
         == [Hit("ISO_7", "Class 10,000", " > ISO_14644 > Part_1")]
  {
    var leaf := Entry("ISO_7", Text("Class 10,000"));
    var part := Entry("Part_1", Object([leaf]));
    var top := Entry("ISO_14644", Object([part]));
    var hit := Hit("ISO_7", "Class 10,000", " > ISO_14644 > Part_1");
    assert OccursAt(Lower("Class 10,000"), "class", 0);
    assert "" + " > " + "ISO_14644" == " > ISO_14644";
    assert " > ISO_14644" + " > " + "Part_1" == " > ISO_14644 > Part_1";
    assert [leaf][1..] == [] && [part][1..] == [] && [top][1..] == [];
    assert Search([leaf], " > ISO_14644 > Part_1", "class") == [hit];
    assert Search([part], " > ISO_14644", "class") == [hit];
  }
}

=== FILE: strings.dfy ===
/** String helpers shared by the whole model. Strings are sequences of
    characters; case mapping is ASCII only. */
module Strings {

  predicate StartsWith(s: string, prefix: string) {
    |prefix| <= |s| && s[..|prefix|] == prefix
  }

  predicate EndsWith(s: string, suffix: string) {
    |suffix| <= |s| && s[|s| - |suffix|..] == suffix
  }

  /** `t` occurs in `s` starting at index `i`. */
  predicate OccursAt(s: string, t: string, i: int) {
    0 <= i && i + |t| <= |s| && s[i..i + |t|] == t
  }

  /** JavaScript `includes` / Python `in` on strings. */
  predicate Contains(s: string, t: string) {
    exists i :: 0 <= i <= |s| - |t| && OccursAt(s, t, i)
  }

  lemma ContainsSuffix(s: string, t: string)
    requires EndsWith(s, t)
    ensures Contains(s, t)
  {
    assert OccursAt(s, t, |s| - |t|);
  }

  /** An occurrence of an occurrence is an occurrence. */
  lemma ContainsTransitive(a: string, b: string, c: string)
    requires Contains(a, b) && Contains(b, c)
    ensures Contains(a, c)
  {
    var i :| 0 <= i <= |a| - |b| && OccursAt(a, b, i);
    var j :| 0 <= j <= |b| - |c| && OccursAt(b, c, j);
    var x, y := a[i + j..i + j + |c|], b[j..j + |c|];
    assert x == y by {
      forall k | 0 <= k < |c| ensures x[k] == y[k] {
        assert a[i..i + |b|][j + k] == b[j + k];
      }
    }
    assert OccursAt(a, c, i + j);
  }

  function LowerChar(c: char): (d: char)
    ensures 'A' <= c <= 'Z' ==> d as int == c as int + 32
    ensures !('A' <= c <= 'Z') ==> d == c
  {
    if 'A' <= c <= 'Z' then (c as int + 32) as char else c
  }

  /** `toLowerCase()` restricted to ASCII letters. */
  function Lower(s: string): (r: string)
    ensures |r| == |s|
    ensures forall i :: 0 <= i < |s| ==> r[i] == LowerChar(s[i])
  {
    seq(|s|, i requires 0 <= i < |s| => LowerChar(s[i]))
  }

  // ---------------------------------------------------------------------
  // Split and join on a one-character separator (JavaScript `split`).

  /** `s.split(sep)`: never empty, and the pieces hold no separator. */
  function Split(s: string, sep: char): (parts: seq<string>)
    ensures |parts| >= 1
    ensures forall k :: 0 <= k < |parts| ==> sep !in parts[k]
    ensures StartsWith(s, parts[0]) && (|parts[0]| < |s| ==> s[|parts[0]|] == sep)
    decreases |s|
  {
    if |s| == 0 then [""]
    else if s[0] == sep then [""] + Split(s[1..], sep)
    else
      var rest := Split(s[1..], sep);
      [[s[0]] + rest[0]] + rest[1..]
  }

  /** `parts.join(sep)`. */
  function Join(parts: seq<string>, sep: string): string
  {
    if |parts| == 0 then ""
    else if |parts| == 1 then parts[0]
    else parts[0] + sep + Join(parts[1..], sep)
  }

  lemma {:induction false} JoinSplit(s: string, sep: char)
    ensures Join(Split(s, sep), [sep]) == s
    decreases |s|
  {
    if |s| == 0 {
    } else if s[0] == sep {
      JoinSplit(s[1..], sep);
      var rest := Split(s[1..], sep);
      assert Split(s, sep) == [""] + rest;
      assert ([""] + rest)[1..] == rest;
      assert s == [sep] + s[1..];
    } else {
      JoinSplit(s[1..], sep);
      var rest := Split(s[1..], sep);
      var parts := [[s[0]] + rest[0]] + rest[1..];
      assert Split(s, sep) == parts;
      if |rest| == 1 {
        assert s == [s[0]] + s[1..];
      } else {
        assert parts[1..] == rest[1..];
        assert Join(rest, [sep]) == rest[0] + [sep] + Join(rest[1..], [sep]);
        assert s == [s[0]] + s[1..];
      }
    }
  }

  lemma {:induction false} SplitJoin(parts: seq<string>, sep: char)
    requires |parts| >= 1
    requires forall k :: 0 <= k < |parts| ==> sep !in parts[k]
    ensures Split(Join(parts, [sep]), sep) == parts
    decreases |parts|
  {
    var p := parts[0];
    if |parts| == 1 {
      SplitAfter(p, [sep], sep);
      assert p + [sep] == Join(parts, [sep]) + [sep];
      SplitNoSeparator(p, sep);
    } else {
      var tail := Join(parts[1..], [sep]);
      var rest := [sep] + tail;
      assert Join(parts, [sep]) == p + rest;
      SplitAfter(p, rest, sep);
      assert rest[1..] == tail;
      SplitJoin(parts[1..], sep);
      assert parts == [p] + parts[1..];
    }
  }

  /** A piece without the separator splits into itself. */
  lemma {:induction false} SplitNoSeparator(x: string, sep: char)
    requires sep !in x
    ensures Split(x, sep) == [x]
    decreases |x|
  {
    if |x| > 0 {
      SplitNoSeparator(x[1..], sep);
      assert [x[0]] + x[1..] == x;
    }
  }

  /** Splitting `x` followed by a separator and more text. */
  lemma {:induction false} SplitAfter(x: string, rest: string, sep: char)
    requires sep !in x && |rest| > 0 && rest[0] == sep
    ensures Split(x + rest, sep) == [x] + Split(rest[1..], sep)
    decreases |x|
  {
    if |x| == 0 {
      assert x + rest == rest;
    } else {
      SplitAfter(x[1..], rest, sep);
      assert (x + rest)[1..] == x[1..] + rest;
      assert [x[0]] + x[1..] == x;
    }
  }

  // ---------------------------------------------------------------------
  // Replace every occurrence, left to right, without overlaps (Python
  // `str.replace`, JavaScript `replace` with a global pattern).

  function ReplaceAll(s: string, pat: string, rep: string): string
    requires |pat| > 0
    decreases |s|
  {
    if |s| < |pat| then s
    else if s[..|pat|] == pat then rep + ReplaceAll(s[|pat|..], pat, rep)
    else [s[0]] + ReplaceAll(s[1..], pat, rep)
  }

  /** Replacing a one-character pattern works character by character. */
  lemma ReplaceCharCons(c: char, rest: string, pat: char, rep: string)
    ensures ReplaceAll([c] + rest, [pat], rep)
         == (if c == pat then rep else [c]) + ReplaceAll(rest, [pat], rep)
  {
    var s := [c] + rest;
    assert s[..1] == [c];
    assert s[1..] == rest;
  }

  // ---------------------------------------------------------------------
  // Decimal digits.

  predicate IsDigit(c: char) {
    '0' <= c <= '9'
  }

  /** Python `str.isdigit` on ASCII: non-empty and all digits. */
  predicate IsDigits(s: string) {
    |s| > 0 && forall i :: 0 <= i < |s| ==> IsDigit(s[i])
  }

  /** The value of a string of decimal digits (Python `int`, leading zeros allowed). */
  function DecimalValue(s: string): nat
    requires forall i :: 0 <= i < |s| ==> IsDigit(s[i])
  {
    if |s| == 0 then 0
    else
      var d := s[|s| - 1];
      assert IsDigit(d);
      DecimalValue(s[..|s| - 1]) * 10 + (d as int - '0' as int)
  }

  /** The decimal rendering of a natural number (Python f-string, JavaScript
      template literal), without leading zeros. */
  function Decimal(n: nat): (r: string)
    ensures IsDigits(r)
    ensures DecimalValue(r) == n
    ensures |r| > 1 ==> r[0] != '0'
  {
    var last := ('0' as int + n % 10) as char;
    if n < 10 then [last]
    else
      var front := Decimal(n / 10);
      var r := front + [last];
      assert r[..|r| - 1] == front;
      r
  }

  lemma DecimalInjective(a: nat, b: nat)
    requires Decimal(a) == Decimal(b)
    ensures a == b
  {
  }

  // ---------------------------------------------------------------------
  // Python `str.strip()` with ASCII whitespace.

  /** The characters Python's `strip()` removes among the first 128. */
  const SPACE_CHARS: set<char> := {' ', '\t', '\n', '\r', '\U{B}', '\U{C}', '\U{1C}', '\U{1D}', '\U{1E}', '\U{1F}'}

  predicate IsSpace(c: char) {
    c in SPACE_CHARS
  }

  /** `r` is the slice of `s` at `i` and everything around it is whitespace. */
  predicate StrippedAt(s: string, r: string, i: int) {
    && 0 <= i <= |s| - |r|
    && r == s[i..i + |r|]
    && (forall k :: 0 <= k < i ==> IsSpace(s[k]))
    && (forall k :: i + |r| <= k < |s| ==> IsSpace(s[k]))
  }

  function StripStart(s: string): (r: string)
    ensures StrippedAt(s, r, |s| - |r|)
    ensures |r| > 0 ==> !IsSpace(r[0])
  {
    if |s| > 0 && IsSpace(s[0]) then StripStart(s[1..]) else s
  }

  function StripEnd(s: string): (r: string)
    ensures StrippedAt(s, r, 0)
    ensures |r| > 0 ==> !IsSpace(r[|r| - 1])
  {
    if |s| > 0 && IsSpace(s[|s| - 1]) then StripEnd(s[..|s| - 1]) else s
  }

  /** Stripping a stripped slice again gives a stripped slice of the whole. */
  lemma StrippedTwice(s: string, a: string, i: int, r: string, j: int)
    requires StrippedAt(s, a, i) && StrippedAt(a, r, j)
    ensures StrippedAt(s, r, i + j)
  {
    var t := s[i + j..i + j + |r|];
    forall k | 0 <= k < |r|
      ensures r[k] == t[k]
    {
      assert r[k] == a[j + k];
      assert a[j + k] == s[i + j + k];
    }
    assert r == t;
    forall k | 0 <= k < i + j
      ensures IsSpace(s[k])
    {
      if k >= i {
        assert s[k] == a[k - i];
      }
    }
    forall k | i + j + |r| <= k < |s|
      ensures IsSpace(s[k])
    {
      if k < i + |a| {
        assert s[k] == a[k - i];
      }
    }
  }

  /** `s.strip()`: the middle part of `s` once the whitespace at both ends is gone. */
  function Strip(s: string): (r: string)
    ensures exists i :: StrippedAt(s, r, i)
    ensures |r| > 0 ==> !IsSpace(r[0]) && !IsSpace(r[|r| - 1])
  {
    var a := StripStart(s);
    var r := StripEnd(a);
    StrippedTwice(s, a, |s| - |a|, r, 0);
    assert r[0..] == r;
    r
  }

  /** Strip leaves alone a string that neither starts nor ends with whitespace. */
  lemma StripIdentity(s: string)
    requires |s| > 0 ==> !IsSpace(s[0]) && !IsSpace(s[|s| - 1])
    ensures Strip(s) == s
  {
    var r := Strip(s);
    var i :| StrippedAt(s, r, i);
    assert i == 0 && |r| == |s|;
  }

  /** A string of decimal digits carries no surrounding whitespace. */
  lemma StripDigits(d: string)
    requires IsDigits(d)
    ensures Strip(d) == d
  {
    assert IsDigit(d[0]) && IsDigit(d[|d| - 1]);
    StripIdentity(d);
  }
}

=== FILE: validator.dfy ===
/** The rule-based checks of the MEP validation agent: equipment schedule
    rows and room ventilation (air changes per hour). */
module MepValidator {
  import opened Wrappers
  import opened Strings

  const PASS := "PASS"
  const FAIL := "FAIL"

  const ZERO_STATIC_PRESSURE := "Zero/Missing static pressure"
  const MISSING_FLOW_RATE := "Missing flow rate"
  const INVALID_NUMERIC := "Invalid numeric data"
  const INVALID_POWER := "Invalid power format"
  const NO_ISSUES := "None"

  const CATEGORY := "Category"
  const MARK := "Mark"
  const STATIC_PRESSURE := "Static Pressure (in wg)"
  const FLOW_RATE := "Flow Rate (GPM)"
  const POWER := "Power (V/PH/Hz)"

  // ---------------------------------------------------------------------
  // Numbers as Python's `float(...)` produces them.

  datatype Float = Finite(x: real) | PosInf | NegInf | NaN

  /** Python's `v <= 0`; every comparison with NaN is false. */
  predicate AtMostZero(v: Float) {
    match v
    case Finite(x) => x <= 0.0
    case NegInf => true
    case PosInf => false
    case NaN => false
  }

  /** `float(text)`: `None` where Python raises `ValueError`. */
  type Parser = string -> Option<Float>

  /** A parser that reads the text "0" as zero, as `float('0')` does. */
  predicate ReadsZero(parse: Parser) {
    parse("0") == Some(Finite(0.0))
  }

  // ---------------------------------------------------------------------
  // Equipment rows.

  /** A CSV row as `csv.DictReader` yields it; a column the row lacks is an
      absent key. */
  type Row = map<string, string>

  /** `row.get(key, default)`. */
  function Get(row: Row, key: string, default: string): string {
    if key in row then row[key] else default
  }

  /** What one numeric column of a row says. */
  datatype Reading = Positive | NotPositive | Unparseable

  /** `v = float(text) if text and text != '-' else 0`, then `v <= 0`. */
  function Read(text: string, parse: Parser): Reading {
    if text == "" || text == "-" then NotPositive
    else
      match parse(text)
      case None => Unparseable
      case Some(v) => if AtMostZero(v) then NotPositive else Positive
  }

  /** The column of a row is missing, empty, a dash, or a number that is not above zero. */
  predicate MissingOrNotPositive(row: Row, key: string, parse: Parser) {
    || key !in row
    || row[key] == ""
    || row[key] == "-"
    || (parse(row[key]).Some? && AtMostZero(parse(row[key]).value))
  }

  /** The column holds text that `float` rejects. */
  predicate Malformed(row: Row, key: string, parse: Parser) {
    key in row && row[key] != "" && row[key] != "-" && parse(row[key]).None?
  }

  /** The issue, if any, of the numeric check for the row's category. */
  function CategoryIssues(row: Row, parse: Parser): seq<string> {
    var category := Get(row, CATEGORY, "");
    if category == "Fan" then
      match Read(Get(row, STATIC_PRESSURE, "0"), parse)
      case Positive => []
      case NotPositive => [ZERO_STATIC_PRESSURE]
      case Unparseable => [INVALID_NUMERIC]
    else if category == "Pump" then
      match Read(Get(row, FLOW_RATE, "0"), parse)
      case Positive => []
      case NotPositive => [MISSING_FLOW_RATE]
      case Unparseable => [INVALID_NUMERIC]
    else []
  }

  /** `power and '/' in power`. */
  predicate PowerWellFormed(row: Row) {
    var power := Get(row, POWER, "");
    power != "" && '/' in power
  }

  /** The issues in the order the validator records them. */
  function Issues(row: Row, parse: Parser): seq<string> {
    CategoryIssues(row, parse) + (if PowerWellFormed(row) then [] else [INVALID_POWER])
  }

  datatype EquipmentResult = EquipmentResult(mark: string, category: string, status: string, issues: string)

  /** `LabMEPAgent.validate_equipment`. */
  function ValidateEquipment(row: Row, parse: Parser): (r: EquipmentResult)
    ensures r.mark == Get(row, MARK, "") && r.category == Get(row, CATEGORY, "")
    ensures r.status == PASS || r.status == FAIL
    ensures r.status == PASS <==> r.issues == NO_ISSUES
    ensures r.status == PASS <==> CategoryIssues(row, parse) == [] && PowerWellFormed(row)
    ensures !PowerWellFormed(row) ==> EndsWith(r.issues, INVALID_POWER)
    ensures Contains(r.issues, INVALID_POWER) <==> !PowerWellFormed(row)
    ensures var cat := CategoryIssues(row, parse);
            && |cat| <= 1
            && (PowerWellFormed(row) && cat != [] ==> r.issues == cat[0])
            && (!PowerWellFormed(row) && cat == [] ==> r.issues == INVALID_POWER)
            && (!PowerWellFormed(row) && cat != [] ==> r.issues == cat[0] + ", " + INVALID_POWER)
  {
    var issues := Issues(row, parse);
    var text := if issues == [] then NO_ISSUES else Join(issues, ", ");
    IssueTextFacts(row, parse);
    EquipmentResult(Get(row, MARK, ""), Get(row, CATEGORY, ""), if issues == [] then PASS else FAIL, text)
  }

  /** The four issue texts a well-formed power column can leave behind do not
      mention the power format. */
  lemma NoPowerIssueIn(s: string)
    requires s in {NO_ISSUES, ZERO_STATIC_PRESSURE, MISSING_FLOW_RATE, INVALID_NUMERIC}
    ensures !Contains(s, INVALID_POWER)
  {
    forall i | 0 <= i <= |s| - |INVALID_POWER|
      ensures !OccursAt(s, INVALID_POWER, i)
    {
      if s == ZERO_STATIC_PRESSURE {
        assert s[i] != INVALID_POWER[0];
      } else {
        assert s == INVALID_NUMERIC && i == 0;
        assert s[8] != INVALID_POWER[8];
      }
    }
  }

  lemma JoinTwo(a: string, b: string, sep: string)
    ensures Join([a, b], sep) == a + sep + b
  {
    assert [a, b][1..] == [b];
  }

  lemma IssueTextFacts(row: Row, parse: Parser)
    ensures var issues := Issues(row, parse);
            var text := if issues == [] then NO_ISSUES else Join(issues, ", ");
            && (issues == [] <==> text == NO_ISSUES)
            && (!PowerWellFormed(row) ==> EndsWith(text, INVALID_POWER))
            && (Contains(text, INVALID_POWER) <==> !PowerWellFormed(row))
            && var cat := CategoryIssues(row, parse);
               && |cat| <= 1
               && (PowerWellFormed(row) && cat != [] ==> text == cat[0])
               && (!PowerWellFormed(row) && cat == [] ==> text == INVALID_POWER)
               && (!PowerWellFormed(row) && cat != [] ==> text == cat[0] + ", " + INVALID_POWER)
  {
    var cat := CategoryIssues(row, parse);
    var issues := Issues(row, parse);
    var text := if issues == [] then NO_ISSUES else Join(issues, ", ");
    assert |cat| <= 1;
    assert forall k :: 0 <= k < |cat| ==> cat[k] in {ZERO_STATIC_PRESSURE, MISSING_FLOW_RATE, INVALID_NUMERIC};
    if PowerWellFormed(row) {
      assert issues == cat;
      if cat == [] {
        assert text == NO_ISSUES;
      } else {
        assert text == cat[0];
        assert text != NO_ISSUES;
      }
      NoPowerIssueIn(text);
    } else {
      if cat == [] {
        assert issues == [INVALID_POWER];
        assert text == INVALID_POWER;
      } else {
        assert issues == [cat[0], INVALID_POWER];
        JoinTwo(cat[0], INVALID_POWER, ", ");
      }
      assert EndsWith(text, INVALID_POWER);
      ContainsSuffix(text, INVALID_POWER);
      assert text != NO_ISSUES;
    }
  }

  /** A fan fails on static pressure exactly when the column is missing, empty,
      a dash or not above zero. */
  lemma FanStaticPressure(row: Row, parse: Parser)
    requires Get(row, CATEGORY, "") == "Fan"
    requires ReadsZero(parse)
    ensures var r := ValidateEquipment(row, parse);
            StartsWith(r.issues, ZERO_STATIC_PRESSURE) <==> MissingOrNotPositive(row, STATIC_PRESSURE, parse)
    ensures MissingOrNotPositive(row, STATIC_PRESSURE, parse) ==> ValidateEquipment(row, parse).status == FAIL
  {
    var r := ValidateEquipment(row, parse);
    var issues := Issues(row, parse);
    if MissingOrNotPositive(row, STATIC_PRESSURE, parse) {
      assert CategoryIssues(row, parse) == [ZERO_STATIC_PRESSURE];
      assert issues[0] == ZERO_STATIC_PRESSURE;
      JoinStartsWithFirst(issues, ", ");
    } else {
      assert !StartsWith(r.issues, ZERO_STATIC_PRESSURE) by {
        FirstIssueIsNotStaticPressure(row, parse);
      }
    }
  }

  /** A pump fails on flow rate exactly when the column is missing, empty, a
      dash or not above zero. */
  lemma PumpFlowRate(row: Row, parse: Parser)
    requires Get(row, CATEGORY, "") == "Pump"
    requires ReadsZero(parse)
    ensures var r := ValidateEquipment(row, parse);
            StartsWith(r.issues, MISSING_FLOW_RATE) <==> MissingOrNotPositive(row, FLOW_RATE, parse)
    ensures MissingOrNotPositive(row, FLOW_RATE, parse) ==> ValidateEquipment(row, parse).status == FAIL
  {
    var r := ValidateEquipment(row, parse);
    var issues := Issues(row, parse);
    if MissingOrNotPositive(row, FLOW_RATE, parse) {
      assert CategoryIssues(row, parse) == [MISSING_FLOW_RATE];
      assert issues[0] == MISSING_FLOW_RATE;
      JoinStartsWithFirst(issues, ", ");
    } else {
      FirstIssueIsNotFlowRate(row, parse);
    }
  }

  /** Text that `float` rejects yields "Invalid numeric data" in place of the
      category's own message. */
  lemma MalformedNumber(row: Row, parse: Parser)
    requires var c := Get(row, CATEGORY, "");
             (c == "Fan" && Malformed(row, STATIC_PRESSURE, parse))
             || (c == "Pump" && Malformed(row, FLOW_RATE, parse))
    ensures var r := ValidateEquipment(row, parse);
            r.status == FAIL && StartsWith(r.issues, INVALID_NUMERIC)
            && !Contains(r.issues, ZERO_STATIC_PRESSURE) && !Contains(r.issues, MISSING_FLOW_RATE)
  {
    var cat := CategoryIssues(row, parse);
    assert cat == [INVALID_NUMERIC];
    var r := ValidateEquipment(row, parse);
    assert r.issues == if PowerWellFormed(row) then cat[0] else cat[0] + ", " + INVALID_POWER;
    NeitherCategoryMessage(r.issues);
  }

  /** Rows of any other category are judged on the power column alone. */
  lemma OtherCategoryPowerOnly(row: Row, parse: Parser)
    requires Get(row, CATEGORY, "") != "Fan" && Get(row, CATEGORY, "") != "Pump"
    ensures var r := ValidateEquipment(row, parse);
            && (r.status == PASS <==> PowerWellFormed(row))
            && (r.issues == NO_ISSUES || r.issues == INVALID_POWER)
  {
  }

  lemma JoinStartsWithFirst(parts: seq<string>, sep: string)
    requires |parts| > 0
    ensures StartsWith(Join(parts, sep), parts[0])
  {
  }

  /** When the numeric check found nothing to complain about, the issue text
      starts with 'N' ("None") or 'I' ("Invalid ..."). */
  lemma FirstIssueLetter(row: Row, parse: Parser)
    requires CategoryIssues(row, parse) == [] || CategoryIssues(row, parse) == [INVALID_NUMERIC]
    ensures var r := ValidateEquipment(row, parse);
            |r.issues| > 0 && (r.issues[0] == 'N' || r.issues[0] == 'I')
  {
    var issues := Issues(row, parse);
    if issues != [] {
      JoinStartsWithFirst(issues, ", ");
      assert issues[0] == INVALID_NUMERIC || issues[0] == INVALID_POWER;
    }
  }

  lemma FirstIssueIsNotStaticPressure(row: Row, parse: Parser)
    requires Get(row, CATEGORY, "") == "Fan"
    requires Read(Get(row, STATIC_PRESSURE, "0"), parse) != NotPositive
    ensures !StartsWith(ValidateEquipment(row, parse).issues, ZERO_STATIC_PRESSURE)
  {
    FirstIssueLetter(row, parse);
  }

  lemma FirstIssueIsNotFlowRate(row: Row, parse: Parser)
    requires Get(row, CATEGORY, "") == "Pump"
    requires Read(Get(row, FLOW_RATE, "0"), parse) != NotPositive
    ensures !StartsWith(ValidateEquipment(row, parse).issues, MISSING_FLOW_RATE)
  {
    assert CategoryIssues(row, parse) == [] || CategoryIssues(row, parse) == [INVALID_NUMERIC];
    FirstIssueLetter(row, parse);
    var t := ValidateEquipment(row, parse).issues;
    if |MISSING_FLOW_RATE| <= |t| {
      assert t[..|MISSING_FLOW_RATE|][0] == t[0] != MISSING_FLOW_RATE[0];
    }
  }

  lemma NeitherCategoryMessage(s: string)
    requires s == INVALID_NUMERIC || s == INVALID_NUMERIC + ", " + INVALID_POWER
    ensures StartsWith(s, INVALID_NUMERIC)
    ensures !Contains(s, ZERO_STATIC_PRESSURE) && !Contains(s, MISSING_FLOW_RATE)
  {
    assert s[..|INVALID_NUMERIC|] == INVALID_NUMERIC;
    assert forall k :: 0 <= k < |s| ==> s[k] != 'Z' && s[k] != 'M';
    forall i | 0 <= i <= |s| - |ZERO_STATIC_PRESSURE|
      ensures !OccursAt(s, ZERO_STATIC_PRESSURE, i)
    {
      assert s[i] != ZERO_STATIC_PRESSURE[0];
    }
    forall i | 0 <= i <= |s| - |MISSING_FLOW_RATE|
      ensures !OccursAt(s, MISSING_FLOW_RATE, i)
    {
      assert s[i] != MISSING_FLOW_RATE[0];
    }
  }

  // ---------------------------------------------------------------------
  // Ventilation.

  /** One row of the agent's own cleanroom class table. */
  datatype ClassStandard = ClassStandard(minAch: int, maxAch: Option<int>, pressurePa: int)

  /** The `standards` table of `LabMEPAgent`. */
  const STANDARDS: map<string, ClassStandard> := map[
    "ISO_7" := ClassStandard(30, Some(65), 15),
    "ISO_8" := ClassStandard(10, Some(25), 10),
    "BSL_3" := ClassStandard(12, None, -30)
  ]

  datatype Room = Room(name: string, roomClass: string, area: real, height: real, supplyAirflow: real)

  datatype VentilationReport = VentilationReport(roomName: string, calculatedAch: real, requiredMin: Option<int>, status: string)

  /** `target.get('min_ach', 0)`: an unknown class asks for nothing. */
  function MinimumAch(roomClass: string): int {
    if roomClass in STANDARDS then STANDARDS[roomClass].minAch else 0
  }

  /** `LabMEPAgent.validate_ventilation`, without the rounding of the reported ACH. */
  function ValidateVentilation(room: Room): (r: VentilationReport)
    requires room.area * room.height != 0.0
    ensures r.roomName == room.name
    ensures r.calculatedAch * (room.area * room.height) == room.supplyAirflow
    ensures r.requiredMin.Some? <==> room.roomClass in STANDARDS
    ensures r.requiredMin.Some? ==> r.requiredMin.value == STANDARDS[room.roomClass].minAch
    ensures r.status == PASS || r.status == FAIL
    ensures r.status == PASS <==> r.calculatedAch >= MinimumAch(room.roomClass) as real
  {
    var volume := room.area * room.height;
    var ach := room.supplyAirflow / volume;
    var required := if room.roomClass in STANDARDS then Some(STANDARDS[room.roomClass].minAch) else None;
    VentilationReport(room.name, ach, required, if ach >= MinimumAch(room.roomClass) as real then PASS else FAIL)
  }

  /** For a room of positive volume the check is "supply covers the minimum
      number of room volumes per hour". */
  lemma VentilationPassIff(room: Room)
    requires room.area * room.height > 0.0
    ensures ValidateVentilation(room).status == PASS
        <==> room.supplyAirflow >= MinimumAch(room.roomClass) as real * (room.area * room.height)
  {
    var v := room.area * room.height;
    var ach := ValidateVentilation(room).calculatedAch;
    var m := MinimumAch(room.roomClass) as real;
    assert ach * v == room.supplyAirflow;
    if ach >= m {
      Scale(m, ach, v);
    } else {
      Scale(ach, m, v);
    }
  }

  /** Multiplying by a positive volume keeps the order. */
  lemma Scale(a: real, b: real, v: real)
    requires v > 0.0 && a <= b
    ensures a * v <= b * v
    ensures a < b ==> a * v < b * v
  {
  }

  /** More supply air never turns a passing room into a failing one. */
  lemma VentilationMonotone(room: Room, more: real)
    requires room.area * room.height > 0.0
    requires more >= room.supplyAirflow
    requires ValidateVentilation(room).status == PASS
    ensures ValidateVentilation(room.(supplyAirflow := more)).status == PASS
  {
    VentilationPassIff(room);
    VentilationPassIff(room.(supplyAirflow := more));
  }

  /** A room whose class is not in the table passes on any non-negative supply. */
  lemma UnknownClassPasses(room: Room)
    requires room.area * room.height > 0.0
    requires room.roomClass !in STANDARDS
    ensures ValidateVentilation(room).requiredMin == None
    ensures ValidateVentilation(room).status == PASS <==> room.supplyAirflow >= 0.0
  {
    VentilationPassIff(room);
  }
}

=== FILE: wrappers.dfy ===
/** Optional values: a field that may be absent (a JavaScript `undefined`, a
    Python dictionary key that is not there, a parse that did not succeed). */
module Wrappers {

  datatype Option<+T> = None | Some(value: T)

  /** JavaScript truthiness of an optional string field: `undefined` and `''`
      are falsy, every other string is truthy. */
  predicate Truthy(s: Option<string>) {
    s.Some? && s.value != ""
  }
}
